=== FILE: README.md ===
# Lane racer: a Dafny model

The repository is a small browser racing game with a score server. It has
three parts:

- **The four-lane game** (`car-game/src/App.js`). The car sits in one of
  four lanes at the bottom of a 400 x 600 board. Every 20 ms tick:
  - the score rises by 3;
  - bullets rise 15 px;
  - obstacles and stars fall by the difficulty's base speed plus one pixel
    per 500 points;
  - sometimes a row of obstacles appears with one random lane left open;
  - above 100 points a star sometimes appears in a lane with no obstacle
    near the top.

  After each tick, key press and click, a bullet pass removes shot
  obstacles and spent bullets. A car pass then handles the first obstacle
  and the first star touching the car:
  - with more than one life, an obstacle costs a life, disables shooting
    and makes the car invulnerable for two seconds;
  - with the last life, an obstacle ends the game;
  - a star gives 20 points, a life and the ability to shoot.

  Arrow keys steer with a 150 ms debounce. Space fires with a 200 ms
  debounce while shooting is enabled. Clicking the left or right half of
  the board steers without a debounce. The restart button on the
  game-over panel resets everything.
- **An earlier snapshot of the same game** (`car-game/src/App_backup.js`).
  It differs in four ways:
  - obstacles are 40 x 60;
  - the score rises at the end of the tick, and the pace of a tick is the
    score the previous tick left, without later star bonuses;
  - the bullet pass judges bullets and obstacles against each other
    symmetrically;
  - a hit obstacle or star is removed by reference.
- **The first prototype** (`App.js` at the root). The car slides freely in
  20 px steps, single 50 x 80 blocks fall at random columns, every tick
  scores one point, and the first contact ends the game.
- **The score server's `submit_score`** (`server.py`). It fills in a
  missing name or score, appends the entry, sorts stably by score from high
  to low, and keeps the top ten.

## How the model is organised

The model is built from immutable datatypes and pure functions. Each kind
of input the browser or server gets is an explicit argument:

- the outcomes of `Math.random()`;
- the time of a key press;
- the position of a click;
- the stored score list.

The modules are:

- `Seqs`: the order-preserving `Filter`, the `findIndex`-style
  `FirstIndex`, `RemoveAt`, and the `Subseq` relation used to say that
  survivors keep their relative order.
- `Geometry`: the board size and the strict bounding-box overlap behind
  every collision test.
- `Entities`: obstacles, stars and bullets share the record
  `Entity(id, x, y)`. Falling and rising are defined once, and identities
  stay unique under motion, pruning and spawning.
- `Lanes`: the lane grid, parameterised by the obstacle size of a snapshot.
  Also the difficulty table, the obstacle-row and star spawn policies, the
  bullet, and the hit boxes.
- `Player`: the game state, steering and firing with their debounces, the
  end of invulnerability, restart, and the invariant `Valid`. `Valid`
  means: the car is on the road, at least one life is left, and identities
  are unique and older than the fresh-identity counter.
- `World`: the tick's motion and spawning. Both snapshots share it; the
  "pace" score is a parameter.
- `LaneGame`, `BackupGame`: one tick plus its bullet and car passes for
  each snapshot. Each module also replays events, with the whole-run
  properties in the contract of `Run`.
- `Prototype`: the root prototype.
- `Ranking`: `submit_score` without its file and HTTP layers.

React runs the game as several effects and state updaters. An effect runs
again whenever a state it lists as a dependency changes:
- the bullet check depends on bullets and obstacles (`App.js:256`);
- the car check depends on obstacles, stars, the car's column, lives and
  the game-over flag (`App.js:302`, `App_backup.js:351`).

A tick and a lane change trigger both checks. The model applies `Settle`
after them: the bullet pass, then the car pass. The end of invulnerability
changes no dependency of either check, so `Apply` runs no pass after it.

In the current snapshot a fired bullet changes only the bullets, so it
triggers only the bullet check. That check's `filter` hands the obstacles
a fresh array (`App.js:234-235`), so the car check runs on the next
render, against the obstacles the shot left. `LaneGame.SettleShot` models
this. A shot that destroys the obstacle touching the car saves the life.
A key press or click that changes nothing causes no render and triggers
no check.

After a tick or a lane change, both checks run on the same render. The car check
therefore finds its obstacle among the obstacles of that render, before
the bullet pass. An obstacle shot in the tick it reaches the car still
hits the car. `LaneGame.Settle` passes those obstacles to the car pass.
The car pass then removes the hit obstacle by identity from what the
bullet pass left. In the earlier snapshot the bullet pass runs on its own
timer, and the model runs it before the car pass (see "Left out").

## Model

| member | source | states |
|---|---|---|
| Lanes.LaneXInjective | car-game/src/App.js:26-30 | two lanes share a column exactly when they are the same lane |
| Lanes.LaneOf | car-game/src/App.js:51 | the lane found for a column has exactly that column, and "no lane" means no lane has it |
| Lanes.RandomIndex | car-game/src/App.js:38 | `Math.floor(u * n)` of a draw in [0, 1) is a valid index below `n` |
| Lanes.SpawnObstacles | car-game/src/App.js:37-46 | a spawned row has three obstacles at the top, in lane order skipping the open lane, with fresh consecutive identities |
| Lanes.OneEmptyLane | car-game/src/App.js:37-46 | every lane except the open one receives an obstacle, and the open one receives none |
| Lanes.AvailableLanes | car-game/src/App.js:49-57 | a lane is available for a star exactly when no obstacle in it is above the 200 px line |
| Lanes.SpawnStar | car-game/src/App.js:48-62 | no star exactly when every lane is blocked; otherwise the star is at the top of some unblocked lane |
| Lanes.FireBullet | car-game/src/App.js:64-70 | a bullet starts level with the car's top edge, centred on the car |
| Lanes.CarMeetsOnlyItsLane | car-game/src/App.js:262-267 | the car overlaps an obstacle horizontally exactly when both are in the same lane |
| Lanes.CarTakesOnlyItsLane | car-game/src/App.js:288-294 | the car overlaps a star horizontally exactly when both are in the same lane |
| Lanes.BulletStaysInLane | car-game/src/App.js:236-239 | a bullet overlaps horizontally exactly the obstacles of the lane it was fired from |
| Lanes.Fall | car-game/src/App.js:185 | the descent per tick is the tier's base speed plus one pixel for every full 500 points |
| Lanes.FallMonotone | car-game/src/App.js:185 | the descent per tick never decreases with the score or with a faster tier |
| Lanes.TiersDominate | car-game/src/App.js:20-24 | each harder tier is strictly faster and spawns strictly more often |
| Entities.Rise | car-game/src/App.js:177-180 | a bullet survives a tick exactly when it rose 15 px and is not yet past the top edge; survivors keep their order |
| Entities.Descend | car-game/src/App.js:184-186 | an entity survives exactly when it fell by the given amount and has not reached the bottom; survivors keep their order |
| Entities.RemoveId | car-game/src/App.js:270 | removal by identity keeps exactly the entities with other identities, in order |
| Entities.RemoveIdAt | car-game/src/App.js:262-270 | with unique identities, removing the identity of the found entity removes exactly that entity |
| Entities.DescendWith | car-game/src/App.js:183-193 | after a tick a falling collection is its moved survivors in order followed by the arrivals, and identities stay unique |
| Player.NewGame | car-game/src/App.js:366-379 | a restart gives an empty, valid, running game in lane 1 with one life, no score, a zero pace score and no shooting |
| Player.Steer | car-game/src/App.js:316-322 | a step moves at most one lane in the chosen direction, never leaves the road, and stands still only at the edge |
| Player.Press | car-game/src/App.js:305-335 | arrows move only after the 150 ms debounce; space fires only while shooting is enabled and after the 200 ms debounce; nothing else changes; validity is kept |
| Player.Click | car-game/src/App.js:429-439 | a click left of the centre steers left and any other click steers right, ignored after game over, validity kept |
| Player.Expire | car-game/src/App.js:278-281 | the end of invulnerability changes nothing else and keeps the state valid |
| Player.SteeringStaysOnRoad | car-game/src/App.js:316-321 | no sequence of key presses and clicks leaves the four lanes |
| World.NewObstacles | car-game/src/App.js:188-190 | a fired roll spawns three fresh obstacles at the top, and otherwise none |
| World.NewStars | car-game/src/App.js:202-210 | exactly one star appears when the pace is above 100, the roll fired and some lane is unblocked; it is in an unblocked lane |
| World.TickObstacles | car-game/src/App.js:183-193 | after a tick the obstacles are exactly the moved survivors in order, then the new row; identities stay unique |
| World.TickStars | car-game/src/App.js:195-210 | after a tick the stars are exactly the moved survivors in order, then the new star if one arrived |
| World.Move | car-game/src/App.js:176-210 | a tick moves bullets, obstacles and stars, leaves lane, lives and flags unchanged, and keeps the state valid |
| LaneGame.Advance | car-game/src/App.js:163-222 | a tick of a running game adds 3 to the score, records it as the pace score and moves everything with it setting the pace; a finished game does not tick |
| LaneGame.SweepBullets | car-game/src/App.js:228-255 | an obstacle survives exactly when no bullet overlaps it; no surviving bullet overlaps a surviving obstacle; with unique identities, a bullet is dropped exactly when it overlaps an obstacle no earlier bullet removed; order is kept |
| LaneGame.SweepWithoutHits | car-game/src/App.js:231-252 | when no bullet overlaps an obstacle the pass changes nothing |
| LaneGame.SweepIdempotent | car-game/src/App.js:225-256 | a second bullet pass changes nothing |
| LaneGame.BulletPass | car-game/src/App.js:225-256 | the bullet pass runs only in a running game and keeps the state valid |
| LaneGame.HitObstacle | car-game/src/App.js:262-285 | the first obstacle of the render touching the car is removed by identity from the current obstacles, the rest keeping their order (exactly that one when the render's obstacles are current); with several lives one is lost, shooting stops and the car turns invulnerable; with the last life the game ends and the life is kept |
| LaneGame.PickStar | car-game/src/App.js:288-301 | the first star touching the car is removed and gives 20 points, a life and shooting |
| LaneGame.CarPass | car-game/src/App.js:259-302 | an invulnerable car or a finished game is untouched; otherwise the obstacle check on the render's obstacles precedes the star check; lives never fall below one |
| LaneGame.SettleShot | car-game/src/App.js:225-302 | after a shot, a running, vulnerable car is hurt or the game ends exactly when an obstacle the volley left unshot touches it; a finished game is left alone; 0 or 20 points are added; the car and the pace score are not moved; validity is kept |
| LaneGame.Settle | car-game/src/App.js:225-302 | a running, vulnerable car hit by an obstacle as the board stood before the bullet pass is hurt or ends the game, even if a bullet removed that obstacle, and is untouched by obstacles otherwise; a finished game is left alone; 0 or 20 points are added; the car and the pace score are not moved; validity is kept |
| LaneGame.Step | car-game/src/App.js:163-302 | a tick of a finished game changes nothing; otherwise it adds 3 points, or 23 with a star; while invulnerable no life is lost and the game cannot end; validity is kept |
| LaneGame.Apply | car-game/src/App.js:225-335 | a restart after a game over gives a new round and a restart of a running game changes nothing; otherwise the score never falls, a finished game only loses its invulnerability, accepted steering moves the car and the passes do not undo it; a rejected key press or a click at the edge changes nothing; a shot that destroys every obstacle touching the car costs no life; validity is kept |
| LaneGame.Run | car-game/src/App.js:163-335 | after any events the car is on the road, a life is left and identities are unique; without a restart the score never falls and a finished game stays finished with its score |
| BackupGame.EarlierGeometry | car-game/src/App_backup.js:27-31 | with 40 px obstacles lane columns start at 100 * lane + 30 and stars are drawn 5 px right of their column |
| BackupGame.Advance | car-game/src/App_backup.js:166-226 | a tick of a running game moves everything at the pace score the previous tick left, which lacks star bonuses picked up since, then adds 3 to the score and records the result as the new pace score |
| BackupGame.BulletPass | car-game/src/App_backup.js:229-299 | an obstacle survives exactly when no bullet overlaps it, and a bullet survives exactly when it overlaps no obstacle, both judged before the pass; order is kept |
| BackupGame.BulletPassIdempotent | car-game/src/App_backup.js:229-299 | a second bullet pass changes nothing |
| BackupGame.HitObstacle | car-game/src/App_backup.js:306-334 | exactly the first obstacle touching the car is removed, with the same life, attack and invulnerability rules |
| BackupGame.PickStar | car-game/src/App_backup.js:337-350 | exactly the first star touching the car is removed and gives 20 points, a life and shooting |
| BackupGame.CarPass | car-game/src/App_backup.js:302-351 | an invulnerable car or a finished game is untouched; the score rises by 0 or 20; lives never fall below one |
| BackupGame.Settle | car-game/src/App_backup.js:229-351 | the two passes leave a finished game alone, add 0 or 20 points, never move the car or the pace score, cost no life while invulnerable, and keep the state valid |
| BackupGame.Step | car-game/src/App_backup.js:166-351 | a tick of a finished game changes nothing; otherwise it adds 3 points, or 23 with a star; while invulnerable no life is lost and the game cannot end; validity is kept |
| BackupGame.Apply | car-game/src/App_backup.js:229-386 | a restart after a game over gives a new round and a restart of a running game changes nothing; otherwise the score never falls, a finished game only loses its invulnerability, accepted steering moves the car and the passes do not undo it; validity is kept |
| BackupGame.Run | car-game/src/App_backup.js:166-386 | after any events the car is on the road, a life is left and identities are unique; without a restart the score never falls and a finished game stays finished with its score |
| Prototype.NewProto | App.js:87-91 | a restart centres the car at x = 175 with no blocks, no score and a running game |
| Prototype.RandomColumn | App.js:10-12 | a new block's column lies in [0, 350) |
| Prototype.ProtoFall | App.js:29 | blocks fall 2 px per tick plus one pixel for every full 500 points |
| Prototype.Drop | App.js:27-31 | a block survives exactly when it moved down by the fall and has not reached the bottom |
| Prototype.ProtoTick | App.js:24-38 | a tick of a running game moves and prunes the blocks at the old score's pace, appends the spawned block last and adds one point; a finished game does not tick |
| Prototype.Collide | App.js:41-53 | the game ends exactly when some block overlaps the car, and nothing else changes |
| Prototype.CrashesMatchesEdges | App.js:43-48 | the box overlap is the source's four edge comparisons |
| Prototype.ProtoPress | App.js:56-64 | an arrow moves the car 20 px, clamped to [0, 350]; other keys and a finished game change nothing |
| Prototype.ProtoStaysOnBoard | App.js:59-60 | after any sequence of events the car is on the board |
| Prototype.ProtoGameOverIsFinal | App.js:25 | once the game is over only a restart changes anything |
| Prototype.ProtoScoreCountsTicks | App.js:35 | without a restart the score grows by at most one per event and never decreases |
| Ranking.EntryOf | server.py:22-24 | a missing name becomes "anonymous", a missing score becomes 0, present fields are kept |
| Ranking.SortDesc | server.py:27 | the sort is a permutation in non-increasing score order |
| Ranking.SortStable | server.py:27 | entries with equal scores keep their relative order |
| Ranking.SortKeepsSorted | server.py:27 | a list already in order is left as it is |
| Ranking.Submit | server.py:21-29 | the stored list has min(n + 1, 10) entries, is sorted, and is drawn from the old entries plus the new one |
| Ranking.SubmitKeepsBest | server.py:27 | no dropped entry outscores a kept one |
| Ranking.SubmitStable | server.py:27 | for every score, the kept entries with that score are the earliest ones of that score, in submission order |
| Ranking.SubmitAdmits | server.py:26-27 | while fewer than ten are stored the new entry gets in, behind every stored entry with its score |
| Ranking.SubmitIsInsertion | server.py:26-27 | on a sorted stored list the update is an insertion behind equal scores, cut to ten |
| Ranking.InsertSorted | server.py:27 | inserting into a sorted list keeps it sorted |
| Ranking.InsertStable | server.py:27 | insertion keeps every score class in order and puts the new entry last in its class |

## Left out

- Scheduling by React, the timers and the clock. `setInterval`,
  `setTimeout` and `Date.now()` are replaced by explicit events
  (`Tick`, `KeyDown` with a time, `InvulnerabilityEnds`, `Restart`).
- The two-second invulnerability is the event `InvulnerabilityEnds`. The
  model does not measure the time until it arrives.
- Stale closures:
  - The earlier snapshot's bullet filter (`App_backup.js:282-294`) reads
    the obstacles of the last render, not the ones being filtered. The
    model judges bullets against the obstacles at the start of the pass.
  - The keyboard handler's debounce times live in the effect that
    re-subscribes whenever the car moves, shooting is toggled or the game
    ends, so they restart from zero then. `Player.Press` models the
    intended debounce, with the last accepted times kept in the state.
  - The car pass reads `lives` from the last render. The model reads the
    current state.
- The current snapshot's bullet pass nests obstacle updates inside the
  bullet updater (`App.js:228-255`). The model runs it as the intended
  sequential sweep: each bullet in order removes what it overlaps among the
  obstacles still standing.
- Which score sets the pace in `App.js` depends on when React evaluates
  the score updater. The model takes the new score, which the statement
  order expresses. The earlier snapshot writes `scoreRef` only at the end
  of a tick, and the model paces it with the score the previous tick left
  (`paceScore`). The prototype uses the score before the tick.
- Randomness:
  - Every `Math.random()` comparison that decides a spawn is a boolean
    input, so the probabilities are not modelled. These are
    `spawn + score / 8000`, the star rate 0.005, and the prototype's
    `0.008 + score / 8000`.
  - Draws that choose a lane or a column are real inputs in [0, 1).
- Identities:
  - The random identities of obstacles and stars (`Math.random()`) are
    modelled as a counter of fresh identities, so they never collide.
  - The bullets' `Date.now() + Math.random()` identities are taken from
    the same counter, so they are unique. Nothing in the source reads them.
    The model uses their uniqueness to say which bullets the current
    snapshot's pass spends.
  - In the earlier snapshot, obstacles and stars have no identities and are
    removed by reference. This is modelled by removing the element at the
    found position. Its bullets carry `Date.now() + Math.random()`
    identities (`App_backup.js:70`), modelled like the current snapshot's.
- `getRandomX` in both four-lane snapshots is never called. Road-line
  scrolling, rendering, styling and the name field are not modelled.
- The difficulty selector is not modelled: the tier is a parameter of
  every tick.
- Fetching and showing the ranking, the HTTP layer, and reading and
  writing `scores.json` are not modelled. `Ranking.Submit` takes the
  stored list and returns the list to store.
- `server.py` scores are modelled as integers. A JSON `null` or a
  non-numeric score, which Python would store or fail to compare, is not
  modelled. A present but empty name is kept, as in the code.
- A JSON `"name": null` makes `data.get` return `None` (`server.py:23`),
  and `None` is stored as the name. `Ranking.Submission` models a name as
  present or absent, so this case is not modelled.
- The prototype's collision effect has no game-over guard. The model runs
  it after every tick and key press; it only ever sets the flag that is
  already set.
- Lives on game over: the code only sets the game-over flag and keeps the
  last life, and the model follows the code (`LaneGame.HitObstacle`,
  `BackupGame.HitObstacle`).
- Re-running effects: React re-runs a check for every render that changes
  one of its dependencies, until nothing changes. The model runs each pass
  once per event. Three differences follow:
  - When two stars touch the car at once, the source picks the second on
    the next re-render. The model picks it at the next event.
  - In the earlier snapshot, a key press or click that changes nothing
    triggers no check in the source. `BackupGame.Apply` still settles after
    it.
  - The earlier snapshot's bullet pass runs on its own 20 ms interval
    (`App_backup.js:232-296`). The model runs it in `Settle`, before the
    car pass.

=== FILE: backup_game.dfy ===
/** The earlier snapshot of the four-lane game (car-game/src/App_backup.js).
    It differs from the current one in the obstacle size (40 x 60, so lanes
    start at x = 100 * lane + 30 and stars are drawn 5 px right of their
    column), in the order of a tick (the score rises last, so the pace is set
    by the score before the tick), in the two-sided bullet pass, and in
    removing the hit obstacle or star by reference rather than by identity. */
module BackupGame {
  import opened Seqs
  import opened Geometry
  import opened Entities
  import opened Lanes
  import opened Player
  import opened World

  const D: Dims := EarlierDims

  /** The earlier lane grid and star offset. */
  lemma EarlierGeometry(lane: int, s: Entity)
    ensures LaneX(D, lane) == (100 * lane + 30) as real
    ensures StarBox(D, s).x == s.x + 5.0
  {
  }

  /** The timer body: bullets, obstacles and stars move with the pace score
      the previous tick left, which lacks any star bonus picked up since;
      then the score rises and becomes the new pace score. A finished game
      does not tick. */
  function Advance(t: Tier, g: Game, r: Draws): (g': Game)
    requires InRange(r)
    ensures g.gameOver ==> g' == g
    ensures !g.gameOver ==> g'.score == g.score + TickScore && g'.paceScore == g'.score
    ensures !g.gameOver ==> g'.obstacles == TickObstacles(D, t, g.paceScore, g, r)
    ensures !g.gameOver ==> g'.stars == TickStars(D, t, g.paceScore, g, r)
    ensures !g.gameOver ==> forall b :: b in g'.bullets <==> b.y > -BulletHeight && Moved(b, BulletSpeed) in g.bullets
    ensures g'.lane == g.lane && g'.lives == g.lives && g'.canAttack == g.canAttack
    ensures g'.invulnerable == g.invulnerable && g'.gameOver == g.gameOver
    ensures g'.lastMove == g.lastMove && g'.lastFire == g.lastFire && g'.nextId >= g.nextId
    ensures Valid(g) ==> Valid(g')
  {
    if g.gameOver then g
    else
      var moved := Move(D, t, g.paceScore, g, r);
      moved.(score := moved.score + TickScore, paceScore := moved.score + TickScore)
  }

  /** No bullet of `bullets` overlaps obstacle `o`. */
  function NotShotBy(bullets: seq<Entity>): Entity -> bool
  {
    (o: Entity) => forall b :: b in bullets ==> !BulletHits(D, b, o)
  }

  /** Bullet `b` overlaps no obstacle of `obstacles`. */
  function ClearOf(obstacles: seq<Entity>): Entity -> bool
  {
    (b: Entity) => forall o :: o in obstacles ==> !BulletHits(D, b, o)
  }

  /** The bullet pass: every obstacle some bullet overlaps is removed, and so
      is every bullet that overlaps some obstacle, both judged against the
      collections as they were before the pass; survivors keep their order. */
  function BulletPass(g: Game): (g': Game)
    ensures g.gameOver ==> g' == g
    ensures !g.gameOver ==> forall o :: o in g'.obstacles <==>
      o in g.obstacles && forall b :: b in g.bullets ==> !BulletHits(D, b, o)
    ensures !g.gameOver ==> forall b :: b in g'.bullets <==>
      b in g.bullets && forall o :: o in g.obstacles ==> !BulletHits(D, b, o)
    ensures Subseq(g'.obstacles, g.obstacles) && Subseq(g'.bullets, g.bullets)
    ensures g' == g.(obstacles := g'.obstacles, bullets := g'.bullets)
    ensures Valid(g) ==> Valid(g')
  {
    if g.gameOver then
      SubseqRefl(g.obstacles);
      SubseqRefl(g.bullets);
      g
    else
      var obstacles := Filter(g.obstacles, NotShotBy(g.bullets));
      SubseqUnique(obstacles, g.obstacles);
      SubseqIdsBelow(obstacles, g.obstacles, g.nextId);
      var bullets := Filter(g.bullets, ClearOf(g.obstacles));
      SubseqUnique(bullets, g.bullets);
      SubseqIdsBelow(bullets, g.bullets, g.nextId);
      g.(obstacles := obstacles, bullets := bullets)
  }

  /** After the pass no surviving bullet overlaps a surviving obstacle, so a
      second pass changes nothing. */
  lemma BulletPassIdempotent(g: Game)
    ensures BulletPass(BulletPass(g)) == BulletPass(g)
  {
    var h := BulletPass(g);
    if !g.gameOver {
      SubseqMembers(h.obstacles, g.obstacles);
      FilterKeepsAll(h.obstacles, NotShotBy(h.bullets));
      FilterKeepsAll(h.bullets, ClearOf(h.obstacles));
    }
  }

  /** The obstacle half of the car pass: the first obstacle overlapping the
      car is removed (by reference, so exactly that one); with more than one
      life the car loses one, stops attacking and turns invulnerable,
      otherwise the game ends and the last life is kept. */
  function HitObstacle(g: Game): (g': Game)
    ensures var h := FirstIndex(g.obstacles, HitsCar(D, g.lane));
      && (h.None? ==> g' == g)
      && (h.Some? ==> |g'.obstacles| == |g.obstacles| - 1 && Subseq(g'.obstacles, g.obstacles))
      && (h.Some? ==> multiset(g'.obstacles) + multiset{g.obstacles[h.value]} == multiset(g.obstacles))
      && (h.Some? && g.lives > 1 ==>
            g'.lives == g.lives - 1 && !g'.canAttack && g'.invulnerable && g'.gameOver == g.gameOver)
      && (h.Some? && g.lives <= 1 ==>
            g'.gameOver && g'.lives == g.lives && g'.canAttack == g.canAttack && g'.invulnerable == g.invulnerable)
    ensures g'.stars == g.stars && g'.bullets == g.bullets && g'.lane == g.lane && g'.score == g.score
    ensures g'.lastMove == g.lastMove && g'.lastFire == g.lastFire && g'.nextId == g.nextId
    ensures g'.paceScore == g.paceScore
    ensures Valid(g) ==> Valid(g')
  {
    match FirstIndex(g.obstacles, HitsCar(D, g.lane))
    case None => g
    case Some(k) =>
      var rest := RemoveAt(g.obstacles, k);
      RemoveAtSubseq(g.obstacles, k);
      RemoveAtMultiset(g.obstacles, k);
      SubseqUnique(rest, g.obstacles);
      SubseqIdsBelow(rest, g.obstacles, g.nextId);
      if g.lives > 1 then
        g.(obstacles := rest, lives := g.lives - 1, canAttack := false, invulnerable := true)
      else
        g.(obstacles := rest, gameOver := true)
  }

  /** The star half of the car pass: the first star overlapping the car is
      removed (by reference) and gives the star bonus, a life and the attack. */
  function PickStar(g: Game): (g': Game)
    ensures var h := FirstIndex(g.stars, TakenByCar(D, g.lane));
      && (h.None? ==> g' == g)
      && (h.Some? ==> |g'.stars| == |g.stars| - 1 && Subseq(g'.stars, g.stars))
      && (h.Some? ==> multiset(g'.stars) + multiset{g.stars[h.value]} == multiset(g.stars))
      && (h.Some? ==> g'.score == g.score + StarBonus && g'.lives == g.lives + 1 && g'.canAttack)
      && (h.Some? ==> g'.invulnerable == g.invulnerable && g'.gameOver == g.gameOver)
    ensures g'.obstacles == g.obstacles && g'.bullets == g.bullets && g'.lane == g.lane
    ensures g'.lastMove == g.lastMove && g'.lastFire == g.lastFire && g'.nextId == g.nextId
    ensures g'.paceScore == g.paceScore
    ensures Valid(g) ==> Valid(g')
  {
    match FirstIndex(g.stars, TakenByCar(D, g.lane))
    case None => g
    case Some(k) =>
      var rest := RemoveAt(g.stars, k);
      RemoveAtSubseq(g.stars, k);
      RemoveAtMultiset(g.stars, k);
      SubseqUnique(rest, g.stars);
      SubseqIdsBelow(rest, g.stars, g.nextId);
      g.(stars := rest, score := g.score + StarBonus, lives := g.lives + 1, canAttack := true)
  }

  /** The car pass: nothing at all while invulnerable or after the game
      ended; otherwise the obstacle check and then the star check. */
  function CarPass(g: Game): (g': Game)
    ensures g.gameOver || g.invulnerable ==> g' == g
    ensures !g.gameOver && !g.invulnerable ==> g' == PickStar(HitObstacle(g))
    ensures g'.score == g.score || g'.score == g.score + StarBonus
    ensures g'.lane == g.lane
    ensures g.lives >= 1 ==> g'.lives >= 1
    ensures Valid(g) ==> Valid(g')
  {
    if g.gameOver || g.invulnerable then g
    else PickStar(HitObstacle(g))
  }

  /** The passes that follow a change on the board: the bullet pass, then
      the car pass. */
  function Settle(g: Game): (g': Game)
    ensures g.gameOver ==> g' == g
    ensures g'.paceScore == g.paceScore
    ensures g'.score == g.score || g'.score == g.score + StarBonus
    ensures g'.lane == g.lane
    ensures g.invulnerable && !g.gameOver ==> g'.lives == g.lives && !g'.gameOver
    ensures Valid(g) ==> Valid(g')
  {
    CarPass(BulletPass(g))
  }

  /** One tick followed by the passes. A finished game is frozen; in a running
      one the score rises by the tick increment, plus the star bonus when a
      star was picked up, and while invulnerable no life is lost and the game
      cannot end. */
  function Step(t: Tier, g: Game, r: Draws): (g': Game)
    requires InRange(r)
    ensures g.gameOver ==> g' == g
    ensures !g.gameOver ==> g'.score == g.score + TickScore || g'.score == g.score + TickScore + StarBonus
    ensures g.invulnerable && !g.gameOver ==> g'.lives == g.lives && !g'.gameOver
    ensures g'.lane == g.lane
    ensures Valid(g) ==> Valid(g')
  {
    Settle(Advance(t, g, r))
  }

  /** One event. Ticks, key presses and clicks are followed by the passes
      they trigger; the end of invulnerability triggers none. The restart
      button exists only on the game-over panel: a restart starts a new round
      after a game over and changes nothing in a running game. Otherwise the
      score never falls, and a finished game only ever loses its
      invulnerability. */
  function Apply(t: Tier, g: Game, e: Event): (g': Game)
    requires Feasible(e)
    ensures e.Restart? && g.gameOver ==> g' == NewGame()
    ensures e.Restart? && !g.gameOver ==> g' == g
    ensures !(e.Restart? && g.gameOver) ==> g'.score >= g.score
    ensures g.gameOver && !e.Restart? ==> g' == g.(invulnerable := g'.invulnerable)
    ensures e.BoardClick? && !g.gameOver ==> g'.lane == Steer(g.lane, e.x < BoardCentre)
    ensures e.KeyDown? && MoveAccepted(g, e.key, e.now) ==> g'.lane == Steer(g.lane, e.key == ArrowLeft)
    ensures Valid(g) ==> Valid(g')
  {
    match e
    case Tick(draws) => Step(t, g, draws)
    case KeyDown(key, now) => Settle(Press(D, g, key, now))
    case BoardClick(x) => Settle(Click(g, x))
    case InvulnerabilityEnds => Expire(g)
    case Restart => if g.gameOver then NewGame() else g
  }

  /** A sequence of events. Whatever happens, the car stays on the road, at
      least one life is left (a game over keeps the last one) and identities
      stay unique; within one round the score never goes down, and a
      finished round stays finished with its score. */
  function Run(t: Tier, g: Game, events: seq<Event>): (g': Game)
    requires forall i :: 0 <= i < |events| ==> Feasible(events[i])
    ensures Valid(g) ==> Valid(g')
    ensures Uninterrupted(events) ==> g'.score >= g.score
    ensures Uninterrupted(events) && g.gameOver ==> g'.gameOver && g'.score == g.score
    decreases |events|
  {
    if |events| == 0 then g
    else
      assert Uninterrupted(events) ==> Uninterrupted(events[1..]) by {
        if Uninterrupted(events) {
          forall i | 0 <= i < |events[1..]|
            ensures !events[1..][i].Restart?
          {
            assert events[1..][i] == events[i + 1];
          }
        }
      }
      Run(t, Apply(t, g, events[0]), events[1..])
  }
}

=== FILE: entities.dfy ===
/** Falling obstacles and stars and rising bullets share one record: an
    identity and a position. Horizontal positions are exact rationals because
    a bullet starts half a pixel off the pixel grid. */
module Entities {
  import opened Seqs
  import opened Geometry

  datatype Entity = Entity(id: nat, x: real, y: int)

  const BulletSpeed: int := 15
  const BulletHeight: int := 15

  /** No two entities of the collection share an identity. */
  predicate UniqueIds(s: seq<Entity>)
  {
    forall i, j :: 0 <= i < j < |s| ==> s[i].id != s[j].id
  }

  /** Every identity in the collection was handed out before `next`. */
  predicate IdsBelow(s: seq<Entity>, next: nat)
  {
    forall e :: e in s ==> e.id < next
  }

  /** The same entity moved vertically by `dy`. */
  function Moved(e: Entity, dy: int): (r: Entity)
    ensures r.id == e.id && r.x == e.x && r.y == e.y + dy
  {
    e.(y := e.y + dy)
  }

  /** Every entity moved vertically by `dy`, identity and column kept. */
  function Shift(es: seq<Entity>, dy: int): (r: seq<Entity>)
    ensures |r| == |es|
    ensures forall i :: 0 <= i < |es| ==> r[i].id == es[i].id && r[i].x == es[i].x
    ensures forall i :: 0 <= i < |es| ==> r[i].y - es[i].y == dy
  {
    seq(|es|, i requires 0 <= i < |es| => Moved(es[i], dy))
  }

  lemma ShiftMembers(es: seq<Entity>, dy: int)
    ensures forall e :: e in Shift(es, dy) <==> Moved(e, -dy) in es
  {
    var r := Shift(es, dy);
    forall e
      ensures e in r <==> Moved(e, -dy) in es
    {
      if e in r {
        var i :| 0 <= i < |r| && r[i] == e;
        assert es[i] == Moved(e, -dy);
      }
      if Moved(e, -dy) in es {
        var i :| 0 <= i < |es| && es[i] == Moved(e, -dy);
        assert r[i] == e;
      }
    }
  }

  /** Obstacles and stars after one tick: each moved down by `fall`, those
      whose new top edge reached the bottom of the board dropped. */
  function Descend(es: seq<Entity>, fall: int): (r: seq<Entity>)
    ensures forall e :: e in r <==> e.y < GameHeight && Moved(e, -fall) in es
    ensures Subseq(r, Shift(es, fall))
  {
    ShiftMembers(es, fall);
    Filter(Shift(es, fall), (e: Entity) => e.y < GameHeight)
  }

  /** What a tick leaves in a falling collection: the moved survivors, then
      the fresh arrivals. */
  lemma DescendThenAppend(es: seq<Entity>, fall: int, arrivals: seq<Entity>)
    ensures forall o: Entity :: o.y < GameHeight && Moved(o, -fall) in es ==> o in Descend(es, fall) + arrivals
    ensures forall o :: o in Descend(es, fall) + arrivals ==>
      (o.y < GameHeight && Moved(o, -fall) in es) || o in arrivals
  {
  }

  /** Bullets after one tick: each moved up by the bullet speed, kept while
      its new top edge is below minus its own height. */
  function Rise(bs: seq<Entity>): (r: seq<Entity>)
    ensures forall b :: b in r <==> b.y > -BulletHeight && Moved(b, BulletSpeed) in bs
    ensures Subseq(r, Shift(bs, -BulletSpeed))
  {
    ShiftMembers(bs, -BulletSpeed);
    Filter(Shift(bs, -BulletSpeed), (b: Entity) => b.y > -BulletHeight)
  }

  function WithoutId(id: nat): Entity -> bool
  {
    (e: Entity) => e.id != id
  }

  /** All entities except those carrying identity `id`. */
  function RemoveId(s: seq<Entity>, id: nat): (r: seq<Entity>)
    ensures forall e :: e in r <==> e in s && e.id != id
    ensures Subseq(r, s)
  {
    Filter(s, WithoutId(id))
  }

  /** Removing by the identity of the entity at position `k` removes exactly
      that entity when identities are unique. */
  lemma RemoveIdAt(s: seq<Entity>, k: nat)
    requires k < |s|
    ensures UniqueIds(s) ==> RemoveId(s, s[k].id) == RemoveAt(s, k)
  {
    if UniqueIds(s) {
      FilterDropsOne(s, WithoutId(s[k].id), k);
    }
  }

  /** Dropping entities cannot create a clash of identities. */
  lemma {:induction false} SubseqUnique(a: seq<Entity>, b: seq<Entity>)
    requires Subseq(a, b)
    ensures UniqueIds(b) ==> UniqueIds(a)
    decreases |b|
  {
    if |a| > 0 && UniqueIds(b) {
      assert UniqueIds(b[1..]);
      if a[0] == b[0] && Subseq(a[1..], b[1..]) {
        SubseqUnique(a[1..], b[1..]);
        SubseqMembers(a[1..], b[1..]);
        forall j | 0 < j < |a|
          ensures a[0].id != a[j].id
        {
          assert a[j] == a[1..][j - 1];
          assert a[j] in b[1..];
          var m :| 0 <= m < |b[1..]| && b[1..][m] == a[j];
          assert b[m + 1] == a[j];
        }
      } else {
        SubseqUnique(a, b[1..]);
      }
    }
  }

  lemma SubseqIdsBelow(a: seq<Entity>, b: seq<Entity>, next: nat)
    requires Subseq(a, b)
    ensures IdsBelow(b, next) ==> IdsBelow(a, next)
  {
    SubseqMembers(a, b);
  }

  /** Appending fresh entities, all newer than the existing ones, keeps
      identities unique. */
  lemma AppendFreshUnique(a: seq<Entity>, b: seq<Entity>, next: nat)
    requires UniqueIds(a) && UniqueIds(b) && IdsBelow(a, next)
    requires forall e :: e in b ==> e.id >= next
    ensures UniqueIds(a + b)
  {
    var c := a + b;
    forall i, j | 0 <= i < j < |c|
      ensures c[i].id != c[j].id
    {
      if j >= |a| && i < |a| {
        assert c[i] in a;
        assert c[j] == b[j - |a|];
        assert c[j] in b;
      } else if i >= |a| {
        assert c[i] == b[i - |a|] && c[j] == b[j - |a|];
      }
    }
  }

  /** Appending an entity with the next fresh identity keeps identities
      unique and below the advanced counter. */
  lemma AppendNewest(es: seq<Entity>, e: Entity, next: nat)
    requires e.id == next
    ensures UniqueIds(es) && IdsBelow(es, next) ==> UniqueIds(es + [e]) && IdsBelow(es + [e], next + 1)
  {
    if UniqueIds(es) && IdsBelow(es, next) {
      AppendFreshUnique(es, [e], next);
    }
  }

  lemma ShiftUnique(es: seq<Entity>, dy: int, next: nat)
    requires UniqueIds(es) && IdsBelow(es, next)
    ensures UniqueIds(Shift(es, dy)) && IdsBelow(Shift(es, dy), next)
  {
    var r := Shift(es, dy);
    forall e | e in r
      ensures e.id < next
    {
      var i :| 0 <= i < |r| && r[i] == e;
      assert es[i] in es;
    }
  }

  /** Motion and pruning keep identities unique and old. */
  lemma DescendUnique(es: seq<Entity>, fall: int, next: nat)
    requires UniqueIds(es) && IdsBelow(es, next)
    ensures UniqueIds(Descend(es, fall)) && IdsBelow(Descend(es, fall), next)
  {
    ShiftUnique(es, fall, next);
    SubseqUnique(Descend(es, fall), Shift(es, fall));
    SubseqIdsBelow(Descend(es, fall), Shift(es, fall), next);
  }

  /** The same for rising bullets. */
  lemma RiseUnique(bs: seq<Entity>, next: nat)
    ensures UniqueIds(bs) && IdsBelow(bs, next) ==> UniqueIds(Rise(bs)) && IdsBelow(Rise(bs), next)
  {
    if UniqueIds(bs) && IdsBelow(bs, next) {
      ShiftUnique(bs, -BulletSpeed, next);
      SubseqUnique(Rise(bs), Shift(bs, -BulletSpeed));
      SubseqIdsBelow(Rise(bs), Shift(bs, -BulletSpeed), next);
    }
  }

  /** A falling collection after one tick: the moved survivors, then the
      arrivals of the tick. Arrivals carry identities handed out from `next`
      on and below `next'`, so identities stay unique and below `next'`. */
  function DescendWith(es: seq<Entity>, fall: int, arrivals: seq<Entity>, next: nat, next': nat): (s: seq<Entity>)
    requires UniqueIds(arrivals) && IdsBelow(arrivals, next') && next <= next'
    requires forall e :: e in arrivals ==> e.id >= next
    ensures forall o: Entity :: o.y < GameHeight && Moved(o, -fall) in es ==> o in s
    ensures forall o :: o in s ==> (o.y < GameHeight && Moved(o, -fall) in es) || o in arrivals
    ensures UniqueIds(es) && IdsBelow(es, next) ==> UniqueIds(s) && IdsBelow(s, next')
    ensures |arrivals| <= |s| && s[|s| - |arrivals|..] == arrivals
    ensures Subseq(s[..|s| - |arrivals|], Shift(es, fall))
  {
    DescendThenAppend(es, fall, arrivals);
    assert (Descend(es, fall) + arrivals)[..|Descend(es, fall)|] == Descend(es, fall);
    if UniqueIds(es) && IdsBelow(es, next) then
      DescendUnique(es, fall, next);
      AppendFreshUnique(Descend(es, fall), arrivals, next);
      Descend(es, fall) + arrivals
    else
      Descend(es, fall) + arrivals
  }
}

=== FILE: geometry.dfy ===
/** Board size and the axis-aligned bounding-box test that every collision
    check of the game uses. */
module Geometry {

  const GameWidth: int := 400
  const GameHeight: int := 600

  /** A rectangle by its top-left corner and its size, in pixels. */
  datatype Box = Box(x: real, y: real, w: real, h: real)

  /** The two boxes share a column of pixels. */
  predicate XOverlap(a: Box, b: Box)
  {
    a.x < b.x + b.w && a.x + a.w > b.x
  }

  /** The two boxes share a row of pixels. */
  predicate YOverlap(a: Box, b: Box)
  {
    a.y < b.y + b.h && a.y + a.h > b.y
  }

  /** Strict overlap on all four edges; touching edges do not collide. */
  predicate Overlaps(a: Box, b: Box)
  {
    XOverlap(a, b) && YOverlap(a, b)
  }
}

=== FILE: lane_game.dfy ===
/** The current four-lane game (car-game/src/App.js): one tick of motion,
    pruning and spawning, then the bullet pass, then the car pass with its
    life, attack and invulnerability rules. Each random draw of a tick is an
    explicit input. */
module LaneGame {
  import opened Seqs
  import opened Geometry
  import opened Entities
  import opened Lanes
  import opened Player
  import opened World

  const D: Dims := CurrentDims

  /** The timer body: the score first, then everything moves with the new
      score setting the pace. A finished game does not tick. */
  function Advance(t: Tier, g: Game, r: Draws): (g': Game)
    requires InRange(r)
    ensures g.gameOver ==> g' == g
    ensures !g.gameOver ==> g'.score == g.score + TickScore && g'.paceScore == g'.score
    ensures !g.gameOver ==> g'.obstacles == TickObstacles(D, t, g.score + TickScore, g, r)
    ensures !g.gameOver ==> g'.stars == TickStars(D, t, g.score + TickScore, g, r)
    ensures !g.gameOver ==> forall b :: b in g'.bullets <==> b.y > -BulletHeight && Moved(b, BulletSpeed) in g.bullets
    ensures g'.lane == g.lane && g'.lives == g.lives && g'.canAttack == g.canAttack
    ensures g'.invulnerable == g.invulnerable && g'.gameOver == g.gameOver
    ensures g'.lastMove == g.lastMove && g'.lastFire == g.lastFire && g'.nextId >= g.nextId
    ensures Valid(g) ==> Valid(g')
  {
    if g.gameOver then g
    else Move(D, t, g.score + TickScore, g, r).(score := g.score + TickScore, paceScore := g.score + TickScore)
  }

  /** No bullet of `bullets` overlaps `o`. */
  predicate Unshot(bullets: seq<Entity>, o: Entity)
  {
    forall b :: b in bullets ==> !BulletHits(D, b, o)
  }

  function MissedBy(b: Entity): Entity -> bool
  {
    (o: Entity) => !BulletHits(D, b, o)
  }

  datatype Sweep = Sweep(bullets: seq<Entity>, obstacles: seq<Entity>)

  /** Bullet `i` of a volley is spent by the pass: it overlaps an obstacle
      that no earlier bullet of the volley removed. */
  predicate SpentAt(bullets: seq<Entity>, obstacles: seq<Entity>, i: nat)
    requires i < |bullets|
  {
    exists o :: o in obstacles && BulletHits(D, bullets[i], o) && Unshot(bullets[..i], o)
  }

  /** The bullet pass: bullets in order, each removing every obstacle still
      standing that it overlaps, and spent if it removed any. */
  function SweepBullets(bullets: seq<Entity>, obstacles: seq<Entity>): (r: Sweep)
    ensures forall o :: o in r.obstacles <==> o in obstacles && Unshot(bullets, o)
    ensures forall b, o :: b in r.bullets && o in r.obstacles ==> !BulletHits(D, b, o)
    ensures forall b :: b in bullets && b !in r.bullets ==> exists o :: o in obstacles && BulletHits(D, b, o)
    ensures UniqueIds(bullets) ==>
      forall i :: 0 <= i < |bullets| ==> (bullets[i] in r.bullets <==> !SpentAt(bullets, obstacles, i))
    ensures Subseq(r.bullets, bullets) && Subseq(r.obstacles, obstacles)
    decreases |bullets|
  {
    if |bullets| == 0 then
      SubseqRefl(obstacles);
      Sweep([], obstacles)
    else
      var b := bullets[0];
      var standing := Filter(obstacles, MissedBy(b));
      var rest := SweepBullets(bullets[1..], standing);
      SubseqTrans(rest.obstacles, standing, obstacles);
      ConsMembers(bullets);
      UnshotSplit(bullets);
      var kept := !exists o :: o in obstacles && BulletHits(D, b, o);
      SpentCons(bullets, obstacles, rest.bullets, kept);
      if !kept then
        Sweep(rest.bullets, rest.obstacles)
      else
        assert ([b] + rest.bullets)[1..] == rest.bullets;
        Sweep([b] + rest.bullets, rest.obstacles)
  }

  /** An obstacle escapes a non-empty volley exactly when it escapes the
      first bullet and the rest. */
  lemma UnshotSplit(bullets: seq<Entity>)
    requires |bullets| > 0
    ensures forall o :: Unshot(bullets, o) <==> !BulletHits(D, bullets[0], o) && Unshot(bullets[1..], o)
  {
    ConsMembers(bullets);
  }

  /** Whether a later bullet is spent depends on the first bullet only
      through the obstacles the first one leaves standing. */
  lemma SpentShift(bullets: seq<Entity>, obstacles: seq<Entity>, i: nat)
    requires 0 < i < |bullets|
    ensures SpentAt(bullets, obstacles, i) <==> SpentAt(bullets[1..], Filter(obstacles, MissedBy(bullets[0])), i - 1)
  {
    var standing := Filter(obstacles, MissedBy(bullets[0]));
    assert bullets[1..][i - 1] == bullets[i];
    assert bullets[..i][1..] == bullets[1..][..i - 1];
    UnshotSplit(bullets[..i]);
  }

  /** The spent bullets of a volley, from those of its tail: the first bullet
      is spent exactly when it overlaps some obstacle, and identities keep it
      apart from the bullets behind it. */
  lemma SpentCons(bullets: seq<Entity>, obstacles: seq<Entity>, tail: seq<Entity>, kept: bool)
    requires |bullets| > 0 && Subseq(tail, bullets[1..])
    requires UniqueIds(bullets[1..]) ==> forall i :: 0 <= i < |bullets[1..]| ==>
      (bullets[1..][i] in tail <==> !SpentAt(bullets[1..], Filter(obstacles, MissedBy(bullets[0])), i))
    requires kept <==> !exists o :: o in obstacles && BulletHits(D, bullets[0], o)
    ensures var out := if kept then [bullets[0]] + tail else tail;
      UniqueIds(bullets) ==> forall i :: 0 <= i < |bullets| ==> (bullets[i] in out <==> !SpentAt(bullets, obstacles, i))
  {
    var out := if kept then [bullets[0]] + tail else tail;
    if UniqueIds(bullets) {
      assert UniqueIds(bullets[1..]);
      SubseqMembers(tail, bullets[1..]);
      forall i | 0 <= i < |bullets|
        ensures bullets[i] in out <==> !SpentAt(bullets, obstacles, i)
      {
        if i == 0 {
          assert bullets[..0] == [];
          assert bullets[0] !in bullets[1..] by {
            forall j | 0 <= j < |bullets[1..]|
              ensures bullets[1..][j] != bullets[0]
            {
              assert bullets[1..][j] == bullets[j + 1];
            }
          }
        } else {
          SpentShift(bullets, obstacles, i);
          assert bullets[1..][i - 1] == bullets[i];
          assert bullets[i] != bullets[0];
        }
      }
    }
  }

  /** When no bullet overlaps any obstacle the pass changes nothing. */
  lemma {:induction false} SweepWithoutHits(bullets: seq<Entity>, obstacles: seq<Entity>)
    requires forall b, o :: b in bullets && o in obstacles ==> !BulletHits(D, b, o)
    ensures SweepBullets(bullets, obstacles) == Sweep(bullets, obstacles)
    decreases |bullets|
  {
    if |bullets| > 0 {
      var b := bullets[0];
      FilterKeepsAll(obstacles, MissedBy(b));
      SweepWithoutHits(bullets[1..], obstacles);
      assert bullets == [b] + bullets[1..];
    }
  }

  /** Running the bullet pass a second time changes nothing. */
  lemma SweepIdempotent(bullets: seq<Entity>, obstacles: seq<Entity>)
    ensures var r := SweepBullets(bullets, obstacles);
      SweepBullets(r.bullets, r.obstacles) == r
  {
    var r := SweepBullets(bullets, obstacles);
    SweepWithoutHits(r.bullets, r.obstacles);
  }

  function BulletPass(g: Game): (g': Game)
    ensures g.gameOver ==> g' == g
    ensures !g.gameOver ==> g' == g.(bullets := SweepBullets(g.bullets, g.obstacles).bullets,
                                     obstacles := SweepBullets(g.bullets, g.obstacles).obstacles)
    ensures Valid(g) ==> Valid(g')
  {
    if g.gameOver then g
    else
      var r := SweepBullets(g.bullets, g.obstacles);
      SubseqUnique(r.obstacles, g.obstacles);
      SubseqIdsBelow(r.obstacles, g.obstacles, g.nextId);
      SubseqUnique(r.bullets, g.bullets);
      SubseqIdsBelow(r.bullets, g.bullets, g.nextId);
      g.(bullets := r.bullets, obstacles := r.obstacles)
  }

  /** The obstacle half of the car pass, judged on `seen`, the obstacles
      of the render the check runs in: the first of them overlapping the car
      is removed by identity from the current obstacles (a no-op when the
      bullet pass already removed it); with more than one life the car loses
      one, stops attacking and turns invulnerable, otherwise the game ends
      and the last life is kept. */
  function HitObstacle(g: Game, seen: seq<Entity>): (g': Game)
    ensures var h := FirstIndex(seen, HitsCar(D, g.lane));
      && (h.None? ==> g' == g)
      && (h.Some? ==> forall o :: o in g'.obstacles <==> o in g.obstacles && o.id != seen[h.value].id)
      && (h.Some? ==> Subseq(g'.obstacles, g.obstacles))
      && (h.Some? && seen == g.obstacles && UniqueIds(g.obstacles) ==> g'.obstacles == RemoveAt(g.obstacles, h.value))
      && (h.Some? && g.lives > 1 ==>
            g'.lives == g.lives - 1 && !g'.canAttack && g'.invulnerable && g'.gameOver == g.gameOver)
      && (h.Some? && g.lives <= 1 ==>
            g'.gameOver && g'.lives == g.lives && g'.canAttack == g.canAttack && g'.invulnerable == g.invulnerable)
    ensures g'.stars == g.stars && g'.bullets == g.bullets && g'.lane == g.lane && g'.score == g.score
    ensures g'.lastMove == g.lastMove && g'.lastFire == g.lastFire && g'.nextId == g.nextId
    ensures g'.paceScore == g.paceScore
    ensures Valid(g) ==> Valid(g')
  {
    match FirstIndex(seen, HitsCar(D, g.lane))
    case None => g
    case Some(k) =>
      var rest := RemoveId(g.obstacles, seen[k].id);
      RemoveSeenAt(g.obstacles, seen, k);
      SubseqUnique(rest, g.obstacles);
      SubseqIdsBelow(rest, g.obstacles, g.nextId);
      if g.lives > 1 then
        g.(obstacles := rest, lives := g.lives - 1, canAttack := false, invulnerable := true)
      else
        g.(obstacles := rest, gameOver := true)
  }

  /** When the render's obstacles are the current ones, removing the found
      identity removes exactly the found obstacle. */
  lemma RemoveSeenAt(s: seq<Entity>, seen: seq<Entity>, k: nat)
    requires k < |seen|
    ensures seen == s && UniqueIds(s) ==> RemoveId(s, seen[k].id) == RemoveAt(s, k)
  {
    if seen == s {
      RemoveIdAt(s, k);
    }
  }

  /** The star half of the car pass: the first star overlapping the car is
      removed by identity and gives the star bonus, a life and the attack. */
  function PickStar(g: Game): (g': Game)
    ensures var h := FirstIndex(g.stars, TakenByCar(D, g.lane));
      && (h.None? ==> g' == g)
      && (h.Some? && UniqueIds(g.stars) ==> g'.stars == RemoveAt(g.stars, h.value))
      && (h.Some? ==> g'.score == g.score + StarBonus && g'.lives == g.lives + 1 && g'.canAttack)
      && (h.Some? ==> g'.invulnerable == g.invulnerable && g'.gameOver == g.gameOver)
    ensures g'.obstacles == g.obstacles && g'.bullets == g.bullets && g'.lane == g.lane
    ensures g'.lastMove == g.lastMove && g'.lastFire == g.lastFire && g'.nextId == g.nextId
    ensures g'.paceScore == g.paceScore
    ensures Valid(g) ==> Valid(g')
  {
    match FirstIndex(g.stars, TakenByCar(D, g.lane))
    case None => g
    case Some(k) =>
      var rest := RemoveId(g.stars, g.stars[k].id);
      RemoveIdAt(g.stars, k);
      SubseqUnique(rest, g.stars);
      SubseqIdsBelow(rest, g.stars, g.nextId);
      g.(stars := rest, score := g.score + StarBonus, lives := g.lives + 1, canAttack := true)
  }

  /** The car pass on the obstacles `seen` of its render: nothing at all
      while invulnerable or after the game ended; otherwise the obstacle
      check and then the star check, both against the same lane. */
  function CarPass(g: Game, seen: seq<Entity>): (g': Game)
    ensures g.gameOver || g.invulnerable ==> g' == g
    ensures !g.gameOver && !g.invulnerable ==> g' == PickStar(HitObstacle(g, seen))
    ensures g'.score >= g.score && g'.lane == g.lane
    ensures g.lives >= 1 ==> g'.lives >= 1
    ensures Valid(g) ==> Valid(g')
  {
    if g.gameOver || g.invulnerable then g
    else PickStar(HitObstacle(g, seen))
  }

  /** The passes a change on the board triggers. Both effects run on the
      same render, so the car check judges the obstacles as they were before
      the bullet pass: an obstacle shot in the tick it reaches the car still
      hits the car. The bullet pass's removals come first, then the car
      pass's. */
  function Settle(g: Game): (g': Game)
    ensures g.gameOver ==> g' == g
    ensures g'.paceScore == g.paceScore
    ensures g'.score == g.score || g'.score == g.score + StarBonus
    ensures g'.lane == g.lane
    ensures g.invulnerable && !g.gameOver ==> g'.lives == g.lives && !g'.gameOver
    ensures !g.gameOver && !g.invulnerable && (exists o :: o in g.obstacles && HitsCar(D, g.lane)(o)) ==>
      g'.gameOver || g'.invulnerable
    ensures !g.gameOver && !g.invulnerable && !(exists o :: o in g.obstacles && HitsCar(D, g.lane)(o)) ==>
      !g'.gameOver && !g'.invulnerable && g'.lives >= g.lives
    ensures Valid(g) ==> Valid(g')
  {
    CarPass(BulletPass(g), g.obstacles)
  }

  /** The renders after an accepted shot. The shot changes only the
      bullets, so the bullet pass runs first on its own; its filter hands the
      obstacles a fresh array, which triggers the car check on the next
      render, against the obstacles the shot left standing. */
  function SettleShot(g: Game): (g': Game)
    ensures g.gameOver ==> g' == g
    ensures g'.paceScore == g.paceScore
    ensures g'.score == g.score || g'.score == g.score + StarBonus
    ensures g'.lane == g.lane
    ensures !g.gameOver && !g.invulnerable ==>
      ((exists o :: o in g.obstacles && Unshot(g.bullets, o) && HitsCar(D, g.lane)(o)) ==> g'.gameOver || g'.invulnerable)
    ensures !g.gameOver && !g.invulnerable ==>
      (!(exists o :: o in g.obstacles && Unshot(g.bullets, o) && HitsCar(D, g.lane)(o)) ==>
         !g'.gameOver && !g'.invulnerable && g'.lives >= g.lives)
    ensures Valid(g) ==> Valid(g')
  {
    var shot := BulletPass(g);
    CarPass(shot, shot.obstacles)
  }

  /** One tick followed by the passes it triggers. A finished game is frozen; in a running
      one the score rises by the tick increment, plus the star bonus when a
      star was picked up, and while invulnerable no life is lost and the game
      cannot end. */
  function Step(t: Tier, g: Game, r: Draws): (g': Game)
    requires InRange(r)
    ensures g.gameOver ==> g' == g
    ensures !g.gameOver ==> g'.score == g.score + TickScore || g'.score == g.score + TickScore + StarBonus
    ensures g.invulnerable && !g.gameOver ==> g'.lives == g.lives && !g'.gameOver
    ensures g'.lane == g.lane
    ensures Valid(g) ==> Valid(g')
  {
    Settle(Advance(t, g, r))
  }

  /** One event. A tick and a move of the car are followed by both passes
      on one render; an accepted shot by the bullet pass and then the car
      check on what it left; a key press or click that changes nothing, and
      the end of invulnerability, trigger no pass. The restart
      button exists only on the game-over panel: a restart starts a new round
      after a game over and changes nothing in a running game. Otherwise the
      score never falls, and a finished game only ever loses its
      invulnerability. */
  function Apply(t: Tier, g: Game, e: Event): (g': Game)
    requires Feasible(e)
    ensures e.Restart? && g.gameOver ==> g' == NewGame()
    ensures e.Restart? && !g.gameOver ==> g' == g
    ensures !(e.Restart? && g.gameOver) ==> g'.score >= g.score
    ensures g.gameOver && !e.Restart? ==> g' == g.(invulnerable := g'.invulnerable)
    ensures e.BoardClick? && !g.gameOver ==> g'.lane == Steer(g.lane, e.x < BoardCentre)
    ensures e.KeyDown? && MoveAccepted(g, e.key, e.now) ==> g'.lane == Steer(g.lane, e.key == ArrowLeft)
    ensures e.KeyDown? && !MoveAccepted(g, e.key, e.now) && !FireAccepted(g, e.key, e.now) ==> g' == g
    ensures e.BoardClick? && Steer(g.lane, e.x < BoardCentre) == g.lane ==> g' == g
    ensures e.KeyDown? && FireAccepted(g, e.key, e.now) && !g.invulnerable ==>
      ((forall o :: o in g.obstacles && HitsCar(D, g.lane)(o) ==> !Unshot(g.bullets + [FireBullet(D, g.lane, g.nextId)], o)) ==>
         !g'.gameOver && g'.lives >= g.lives)
    ensures Valid(g) ==> Valid(g')
  {
    match e
    case Tick(draws) => Step(t, g, draws)
    case KeyDown(key, now) =>
      if FireAccepted(g, key, now) then SettleShot(Press(D, g, key, now))
      else if MoveAccepted(g, key, now) then Settle(Press(D, g, key, now))
      else g
    case BoardClick(x) =>
      if Click(g, x).lane == g.lane then g else Settle(Click(g, x))
    case InvulnerabilityEnds => Expire(g)
    case Restart => if g.gameOver then NewGame() else g
  }

  /** A sequence of events. Whatever happens, the car stays on the road, at
      least one life is left (a game over keeps the last one) and identities
      stay unique; within one round the score never goes down, and a
      finished round stays finished with its score. */
  function Run(t: Tier, g: Game, events: seq<Event>): (g': Game)
    requires forall i :: 0 <= i < |events| ==> Feasible(events[i])
    ensures Valid(g) ==> Valid(g')
    ensures Uninterrupted(events) ==> g'.score >= g.score
    ensures Uninterrupted(events) && g.gameOver ==> g'.gameOver && g'.score == g.score
    decreases |events|
  {
    if |events| == 0 then g
    else
      assert Uninterrupted(events) ==> Uninterrupted(events[1..]) by {
        if Uninterrupted(events) {
          forall i | 0 <= i < |events[1..]|
            ensures !events[1..][i].Restart?
          {
            assert events[1..][i] == events[i + 1];
          }
        }
      }
      Run(t, Apply(t, g, events[0]), events[1..])
  }
}

=== FILE: lanes.dfy ===
/** The lane grid, the difficulty table, the random spawn policy and the
    hit boxes of the four-lane game. The two snapshots of the game differ only
    in the obstacle size, which also fixes where lanes sit on the board, so
    everything here takes the obstacle dimensions as a parameter. */
module Lanes {
  import opened Seqs
  import opened Geometry
  import opened Entities

  const LaneCount: nat := 4
  const LaneWidth: int := GameWidth / LaneCount
  const CarWidth: int := 45
  const CarHeight: int := 70
  /** Top edge of the car, which sits 10 px above the bottom of the board. */
  const CarTop: int := GameHeight - CarHeight - 10
  const StarSize: int := 30
  const BulletWidth: int := 6
  /** Obstacles whose top edge is above this line block a lane for a new star. */
  const StarLookahead: int := 200

  /** Obstacle size of one snapshot of the game. */
  datatype Dims = Dims(obstacleWidth: int, obstacleHeight: int)

  /** car-game/src/App.js */
  const CurrentDims: Dims := Dims(30, 45)
  /** car-game/src/App_backup.js */
  const EarlierDims: Dims := Dims(40, 60)

  /** An obstacle fits in a lane and is wider than a bullet's offset from the
      car's edge, as both snapshots' sizes are. */
  predicate Sized(d: Dims)
  {
    20 <= d.obstacleWidth <= LaneWidth && d.obstacleHeight > 0
  }

  /** Left edge of an obstacle centred in `lane`; the car and stars use the same column. */
  function LaneX(d: Dims, lane: int): real
  {
    (lane * LaneWidth) as real + (LaneWidth - d.obstacleWidth) as real / 2.0
  }

  /** Distinct lanes have distinct columns. */
  lemma LaneXInjective(d: Dims, a: int, b: int)
    ensures LaneX(d, a) == LaneX(d, b) <==> a == b
  {
    LaneGap(d, a, b);
  }

  /** Columns of lanes `a` and `b` are `a - b` lane widths apart. */
  lemma LaneGap(d: Dims, a: int, b: int)
    ensures LaneX(d, a) - LaneX(d, b) == ((a - b) * LaneWidth) as real
  {
  }

  /** The lane indices 0, 1, ..., LaneCount - 1. */
  function AllLanes(): (r: seq<nat>)
    ensures |r| == LaneCount && forall i :: 0 <= i < LaneCount ==> r[i] == i
  {
    seq(LaneCount, i requires 0 <= i => i as nat)
  }

  function LanePositions(d: Dims): (r: seq<real>)
    ensures |r| == LaneCount && forall i :: 0 <= i < LaneCount ==> r[i] == LaneX(d, i)
  {
    seq(LaneCount, i => LaneX(d, i))
  }

  function AtX(x: real): real -> bool
  {
    (pos: real) => pos == x
  }

  /** The lane whose column starts at `x`, if any (a `findIndex` over the lane positions). */
  function LaneOf(d: Dims, x: real): (r: Option<nat>)
    ensures r.Some? ==> r.value < LaneCount && LaneX(d, r.value) == x
    ensures r.None? ==> forall l :: 0 <= l < LaneCount ==> LaneX(d, l) != x
  {
    FirstIndex(LanePositions(d), AtX(x))
  }

  /** `Math.floor(u * n)` for a draw `u` of `Math.random()`. */
  function RandomIndex(u: real, n: nat): (r: int)
    requires 0.0 <= u < 1.0 && n > 0
    ensures 0 <= r < n
  {
    assert u * n as real < n as real by {
      assert (1.0 - u) * n as real > 0.0;
    }
    (u * n as real).Floor
  }

  function NotLane(lane: nat): nat -> bool
  {
    (l: nat) => l != lane
  }

  /** The lanes that receive an obstacle when `emptyLane` is the one left open. */
  function LanesExcept(emptyLane: nat): (r: seq<nat>)
    requires emptyLane < LaneCount
    ensures r == AllLanes()[..emptyLane] + AllLanes()[emptyLane + 1..]
  {
    FilterDropsOne(AllLanes(), NotLane(emptyLane), emptyLane);
    Filter(AllLanes(), NotLane(emptyLane))
  }

  /** One obstacle-spawn event: an obstacle at the top of every lane but
      `emptyLane`, in increasing lane order, with fresh identities from `firstId` on. */
  function SpawnObstacles(d: Dims, emptyLane: nat, firstId: nat): (r: seq<Entity>)
    requires emptyLane < LaneCount
    ensures |r| == LaneCount - 1
    ensures forall i :: 0 <= i < |r| ==> r[i].id == firstId + i && r[i].y == -d.obstacleHeight
    ensures forall i :: 0 <= i < |r| ==> r[i].x == LaneX(d, if i < emptyLane then i else i + 1)
  {
    var lanes := LanesExcept(emptyLane);
    seq(|lanes|, i requires 0 <= i < |lanes| =>
      Entity(firstId + i, LaneX(d, lanes[i]), -d.obstacleHeight))
  }

  /** Some entity of `s` starts at column `x`. */
  predicate HasColumn(s: seq<Entity>, x: real)
  {
    exists i :: 0 <= i < |s| && s[i].x == x
  }

  /** Spawn fairness: every lane but `emptyLane` gets an obstacle, and
      `emptyLane` gets none. */
  lemma OneEmptyLane(d: Dims, emptyLane: nat, firstId: nat)
    requires emptyLane < LaneCount
    ensures forall l :: 0 <= l < LaneCount ==>
      (HasColumn(SpawnObstacles(d, emptyLane, firstId), LaneX(d, l)) <==> l != emptyLane)
  {
    var r := SpawnObstacles(d, emptyLane, firstId);
    forall l | 0 <= l < LaneCount
      ensures HasColumn(r, LaneX(d, l)) <==> l != emptyLane
    {
      if l < emptyLane {
        assert r[l].x == LaneX(d, l);
      } else if l > emptyLane {
        assert r[l - 1].x == LaneX(d, l);
      } else {
        forall i | 0 <= i < |r|
          ensures r[i].x != LaneX(d, l)
        {
          LaneXInjective(d, if i < emptyLane then i else i + 1, l);
        }
      }
    }
  }

  /** Freshly spawned obstacles have distinct identities, all at or after `firstId`. */
  lemma SpawnedFresh(d: Dims, emptyLane: nat, firstId: nat)
    requires emptyLane < LaneCount
    ensures UniqueIds(SpawnObstacles(d, emptyLane, firstId))
    ensures IdsBelow(SpawnObstacles(d, emptyLane, firstId), firstId + LaneCount - 1)
    ensures forall e :: e in SpawnObstacles(d, emptyLane, firstId) ==> e.id >= firstId
  {
  }

  /** An obstacle in `lane` is still near the top of the board. */
  predicate Occupied(d: Dims, obstacles: seq<Entity>, lane: nat)
  {
    exists o :: o in obstacles && LaneOf(d, o.x) == Some(lane) && o.y < StarLookahead
  }

  function FreeIn(d: Dims, obstacles: seq<Entity>): nat -> bool
  {
    (l: nat) => !Occupied(d, obstacles, l)
  }

  /** Lanes a new star may use, in increasing order. */
  function AvailableLanes(d: Dims, obstacles: seq<Entity>): (r: seq<nat>)
    ensures forall l: nat :: l in r <==> l < LaneCount && !Occupied(d, obstacles, l)
  {
    var r := Filter(AllLanes(), FreeIn(d, obstacles));
    assert forall l: nat :: l in AllLanes() <==> l < LaneCount by {
      forall l: nat | l < LaneCount
        ensures l in AllLanes()
      {
        assert AllLanes()[l] == l;
      }
    }
    r
  }

  /** A star at the top of a lane with no obstacle near the top, picked by the
      draw `u`; none when every lane is blocked. */
  function SpawnStar(d: Dims, obstacles: seq<Entity>, u: real, id: nat): (r: Option<Entity>)
    requires 0.0 <= u < 1.0
    ensures r.None? <==> forall l :: 0 <= l < LaneCount ==> Occupied(d, obstacles, l)
    ensures r.Some? ==> r.value.id == id && r.value.y == -StarSize
    ensures r.Some? ==> exists l :: 0 <= l < LaneCount && !Occupied(d, obstacles, l) && r.value.x == LaneX(d, l)
  {
    var available := AvailableLanes(d, obstacles);
    if |available| == 0 then
      None
    else
      var lane := available[RandomIndex(u, |available|)];
      assert lane in available;
      Some(Entity(id, LaneX(d, lane), -StarSize))
  }

  function ObstacleBox(d: Dims, o: Entity): Box
  {
    Box(o.x, o.y as real, d.obstacleWidth as real, d.obstacleHeight as real)
  }

  /** A star is drawn centred in the obstacle's column. */
  function StarBox(d: Dims, s: Entity): Box
  {
    Box(s.x + (d.obstacleWidth - StarSize) as real / 2.0, s.y as real, StarSize as real, StarSize as real)
  }

  function BulletBox(b: Entity): Box
  {
    Box(b.x, b.y as real, BulletWidth as real, BulletHeight as real)
  }

  function CarBox(d: Dims, lane: int): Box
  {
    Box(LaneX(d, lane), CarTop as real, CarWidth as real, CarHeight as real)
  }

  predicate CarHits(d: Dims, lane: int, o: Entity)
  {
    Overlaps(ObstacleBox(d, o), CarBox(d, lane))
  }

  predicate CarTakes(d: Dims, lane: int, s: Entity)
  {
    Overlaps(StarBox(d, s), CarBox(d, lane))
  }

  predicate BulletHits(d: Dims, b: Entity, o: Entity)
  {
    Overlaps(BulletBox(b), ObstacleBox(d, o))
  }

  function HitsCar(d: Dims, lane: int): Entity -> bool
  {
    (o: Entity) => CarHits(d, lane, o)
  }

  function TakenByCar(d: Dims, lane: int): Entity -> bool
  {
    (s: Entity) => CarTakes(d, lane, s)
  }

  /** A new bullet, centred on the car and level with the car's top edge. */
  function FireBullet(d: Dims, lane: int, id: nat): (b: Entity)
    ensures b.id == id && b.y == CarTop
    ensures b.x + (BulletWidth as real) / 2.0 == LaneX(d, lane) + (CarWidth as real) / 2.0
  {
    Entity(id, LaneX(d, lane) + (CarWidth as real) / 2.0 - (BulletWidth as real) / 2.0, CarTop)
  }

  /** The car meets an obstacle horizontally exactly when they are in the same lane. */
  lemma CarMeetsOnlyItsLane(d: Dims, carLane: int, obstacleLane: int, o: Entity)
    requires Sized(d) && o.x == LaneX(d, obstacleLane)
    ensures XOverlap(ObstacleBox(d, o), CarBox(d, carLane)) <==> carLane == obstacleLane
  {
    LaneGap(d, obstacleLane, carLane);
    LaneApart(obstacleLane - carLane);
  }

  /** Two different lanes are at least a whole lane width apart. */
  lemma LaneApart(gap: int)
    ensures gap == 0 || (gap * LaneWidth) as real >= LaneWidth as real || (gap * LaneWidth) as real <= -LaneWidth as real
  {
  }

  /** The car meets a star horizontally exactly when they are in the same lane. */
  lemma CarTakesOnlyItsLane(d: Dims, carLane: int, starLane: int, s: Entity)
    requires Sized(d) && s.x == LaneX(d, starLane)
    ensures XOverlap(StarBox(d, s), CarBox(d, carLane)) <==> carLane == starLane
  {
    LaneGap(d, starLane, carLane);
    LaneApart(starLane - carLane);
  }

  /** A bullet fired from a lane meets horizontally exactly the obstacles of that lane. */
  lemma BulletStaysInLane(d: Dims, carLane: int, id: nat, obstacleLane: int, o: Entity)
    requires Sized(d) && o.x == LaneX(d, obstacleLane)
    ensures XOverlap(BulletBox(FireBullet(d, carLane, id)), ObstacleBox(d, o)) <==> carLane == obstacleLane
  {
    LaneGap(d, carLane, obstacleLane);
    LaneApart(carLane - obstacleLane);
  }

  datatype Tier = Easy | Normal | Hard

  /** Base descent in px per tick and base spawn probability per tick. */
  datatype Setting = Setting(speed: nat, spawn: real)

  function Settings(t: Tier): Setting
  {
    match t
    case Easy => Setting(2, 0.004)
    case Normal => Setting(4, 0.008)
    case Hard => Setting(6, 0.013)
  }

  /** Pixels every obstacle and star moves down in one tick at `score`:
      the tier's base speed plus one pixel for every full 500 points. */
  function Fall(t: Tier, score: nat): (r: int)
    ensures r >= Settings(t).speed
    ensures (r - Settings(t).speed) * 500 <= score < (r - Settings(t).speed + 1) * 500
  {
    Settings(t).speed + score / 500
  }

  /** Descent speeds up with the score, and a harder tier is never slower. */
  lemma FallMonotone(t: Tier, t': Tier, score: nat, score': nat)
    requires score <= score'
    requires Settings(t).speed <= Settings(t').speed
    ensures Fall(t, score) <= Fall(t', score')
  {
  }

  /** Each harder tier is strictly faster and strictly denser. */
  lemma TiersDominate()
    ensures Settings(Easy).speed < Settings(Normal).speed < Settings(Hard).speed
    ensures Settings(Easy).spawn < Settings(Normal).spawn < Settings(Hard).spawn
  {
  }
}

=== FILE: player.dfy ===
/** The state of one round of the four-lane game and the parts of its
    handling that both snapshots share: steering by keys and clicks with a
    debounce per kind of key, firing, the end of invulnerability, and restart.
    Timestamps are epoch milliseconds, as `Date.now()` gives them, supplied
    by the caller. */
module Player {
  import opened Seqs
  import opened Geometry
  import opened Entities
  import opened Lanes

  datatype Key = ArrowLeft | ArrowRight | Space | OtherKey

  /** `lastMove` and `lastFire` are the epoch-millisecond times of the last
      accepted move and fire. Both start at 0, so the first press of a round
      is always past its debounce. `nextId` is the next fresh entity identity.
      `paceScore` is the score as the last tick left it, which the source
      keeps in `scoreRef`: a star bonus reaches it only at the next tick. */
  datatype Game = Game(
    lane: nat,
    obstacles: seq<Entity>,
    stars: seq<Entity>,
    bullets: seq<Entity>,
    score: nat,
    lives: nat,
    canAttack: bool,
    invulnerable: bool,
    gameOver: bool,
    lastMove: int,
    lastFire: int,
    nextId: nat,
    paceScore: nat)

  const StartLane: nat := LaneCount / 2 - 1
  /** Clicks left of this offset steer left. */
  const BoardCentre: real := GameWidth as real / 2.0
  const KeyDelay: int := 150
  const AttackDelay: int := 200

  /** What every reachable state satisfies: the car is on the road, at
      least one life is left, and obstacles, stars and bullets can each be
      told apart by identity. */
  predicate Valid(g: Game)
  {
    && g.lane < LaneCount
    && g.lives >= 1
    && UniqueIds(g.obstacles) && IdsBelow(g.obstacles, g.nextId)
    && UniqueIds(g.stars) && IdsBelow(g.stars, g.nextId)
    && UniqueIds(g.bullets) && IdsBelow(g.bullets, g.nextId)
  }

  /** The state `restart` produces, which is also the state of a fresh page. */
  function NewGame(): (g: Game)
    ensures Valid(g) && !g.gameOver && !g.invulnerable && !g.canAttack
    ensures g.lane == 1 && g.lives == 1 && g.score == 0 && g.paceScore == 0
    ensures g.obstacles == [] && g.stars == [] && g.bullets == []
  {
    Game(StartLane, [], [], [], 0, 1, false, false, false, 0, 0, 0, 0)
  }

  /** One lane to the left or right, stopping at the edge of the road. */
  function Steer(lane: nat, left: bool): (r: nat)
    ensures lane < LaneCount ==> r < LaneCount
    ensures left ==> r <= lane && lane - r <= 1
    ensures !left && lane < LaneCount ==> r >= lane && r - lane <= 1
    ensures lane < LaneCount ==> (r == lane <==> (left && lane == 0) || (!left && lane == LaneCount - 1))
  {
    if left then (if lane == 0 then 0 else lane - 1)
    else (if lane + 1 < LaneCount then lane + 1 else LaneCount - 1)
  }

  predicate MoveAccepted(g: Game, key: Key, now: int)
  {
    !g.gameOver && (key == ArrowLeft || key == ArrowRight) && now - g.lastMove >= KeyDelay
  }

  predicate FireAccepted(g: Game, key: Key, now: int)
  {
    !g.gameOver && key == Space && g.canAttack && now - g.lastFire >= AttackDelay
  }

  /** A key press at time `now`: arrows steer at most once per KeyDelay ms,
      space fires at most once per AttackDelay ms and only while attacking is
      enabled; nothing happens once the game is over. */
  function Press(d: Dims, g: Game, key: Key, now: int): (r: Game)
    ensures g.gameOver ==> r == g
    ensures Valid(g) ==> Valid(r)
    ensures MoveAccepted(g, key, now) ==> r.lane == Steer(g.lane, key == ArrowLeft) && r.lastMove == now
    ensures !MoveAccepted(g, key, now) ==> r.lane == g.lane && r.lastMove == g.lastMove
    ensures FireAccepted(g, key, now) ==>
      r.bullets == g.bullets + [FireBullet(d, g.lane, g.nextId)] && r.lastFire == now && r.nextId == g.nextId + 1
    ensures !FireAccepted(g, key, now) ==>
      r.bullets == g.bullets && r.lastFire == g.lastFire && r.nextId == g.nextId
    ensures r.obstacles == g.obstacles && r.stars == g.stars && r.score == g.score && r.lives == g.lives
    ensures r.canAttack == g.canAttack && r.invulnerable == g.invulnerable && r.gameOver == g.gameOver
  {
    if g.gameOver then g
    else
      var moved :=
        if (key == ArrowLeft || key == ArrowRight) && now - g.lastMove >= KeyDelay
        then g.(lane := Steer(g.lane, key == ArrowLeft), lastMove := now)
        else g;
      if key == Space && moved.canAttack && now - moved.lastFire >= AttackDelay
      then
        var shot := FireBullet(d, moved.lane, moved.nextId);
        AppendNewest(moved.bullets, shot, moved.nextId);
        moved.(bullets := moved.bullets + [shot],
               lastFire := now, nextId := moved.nextId + 1)
      else moved
  }

  /** A click on the board: the left half steers left, the right half steers
      right, with no debounce; nothing happens once the game is over. */
  function Click(g: Game, clickX: real): (r: Game)
    ensures g.gameOver ==> r == g
    ensures !g.gameOver ==> r == g.(lane := Steer(g.lane, clickX < BoardCentre))
    ensures Valid(g) ==> Valid(r)
  {
    if g.gameOver then g
    else if clickX < BoardCentre then g.(lane := Steer(g.lane, true))
    else g.(lane := Steer(g.lane, false))
  }

  /** The invulnerability window ran out. */
  function Expire(g: Game): (r: Game)
    ensures !r.invulnerable && r == g.(invulnerable := false)
    ensures Valid(g) ==> Valid(r)
  {
    g.(invulnerable := false)
  }

  /** A steering input: a key press at a time, or a click at a horizontal offset. */
  datatype Steering = KeyAt(key: Key, now: int) | ClickAt(x: real)

  function ApplySteering(d: Dims, g: Game, s: Steering): Game
  {
    match s
    case KeyAt(key, now) => Press(d, g, key, now)
    case ClickAt(x) => Click(g, x)
  }

  function SteerAll(d: Dims, g: Game, inputs: seq<Steering>): Game
    decreases |inputs|
  {
    if |inputs| == 0 then g
    else SteerAll(d, ApplySteering(d, g, inputs[0]), inputs[1..])
  }

  /** From any lane on the road (lane 1 at the start), no sequence of key
      presses and clicks leaves the road. */
  lemma {:induction false} SteeringStaysOnRoad(d: Dims, g: Game, inputs: seq<Steering>)
    requires g.lane < LaneCount
    ensures SteerAll(d, g, inputs).lane < LaneCount
    decreases |inputs|
  {
    if |inputs| > 0 {
      var g' := ApplySteering(d, g, inputs[0]);
      assert g'.lane < LaneCount by {
        match inputs[0]
        case KeyAt(key, now) =>
          if MoveAccepted(g, key, now) {
            assert g'.lane == Steer(g.lane, key == ArrowLeft);
          }
        case ClickAt(x) =>
      }
      SteeringStaysOnRoad(d, g', inputs[1..]);
    }
  }
}

=== FILE: prototype.dfy ===
/** The first prototype of the game (App.js at the repository root): the car
    slides freely along the bottom in 20 px steps, single 50 x 80 blocks fall
    at random columns, every tick scores one point, and any contact ends the
    game. */
module Prototype {
  import opened Seqs
  import opened Geometry

  const CarWidth: int := 50
  const CarHeight: int := 80
  const BlockWidth: int := 50
  const BlockHeight: int := 80
  /** The car's left edge at the start: centred on the board. */
  const CarStart: int := GameWidth / 2 - CarWidth / 2
  /** The right-most left edge the car may take. */
  const CarMax: int := GameWidth - CarWidth
  const CarStep: int := 20
  /** Top edge of the car, 10 px above the bottom of the board. */
  const CarTop: int := GameHeight - CarHeight - 10
  const BaseSpeed: int := 2

  datatype Block = Block(x: int, y: int)

  datatype Proto = Proto(carX: int, blocks: seq<Block>, score: nat, gameOver: bool)

  /** The car is on the board. */
  predicate OnBoard(p: Proto)
  {
    0 <= p.carX <= CarMax
  }

  function NewProto(): (p: Proto)
    ensures OnBoard(p) && p.carX == 175 && p.blocks == [] && p.score == 0 && !p.gameOver
  {
    Proto(CarStart, [], 0, false)
  }

  /** `Math.floor(Math.random() * (GAME_WIDTH - OBSTACLE_WIDTH))` for a draw `u`. */
  function RandomColumn(u: real): (x: int)
    requires 0.0 <= u < 1.0
    ensures 0 <= x < GameWidth - BlockWidth
  {
    assert u * (GameWidth - BlockWidth) as real < (GameWidth - BlockWidth) as real;
    (u * (GameWidth - BlockWidth) as real).Floor
  }

  /** Pixels every block moves down in one tick at `score`: two, plus one
      for every full 500 points. */
  function ProtoFall(score: nat): (r: int)
    ensures BaseSpeed <= r && (score < 500 ==> r == BaseSpeed)
    ensures (r - BaseSpeed) * 500 <= score < (r - BaseSpeed + 1) * 500
  {
    BaseSpeed + score / 500
  }

  function Lowered(b: Block, dy: int): (r: Block)
    ensures r.x == b.x && r.y == b.y + dy
  {
    Block(b.x, b.y + dy)
  }

  /** Every block moved down by `fall`, those whose top edge reached the
      bottom of the board dropped. */
  function Drop(blocks: seq<Block>, fall: int): (r: seq<Block>)
    ensures |r| <= |blocks|
    ensures forall b :: b in r <==> b.y < GameHeight && Lowered(b, -fall) in blocks
  {
    var moved := seq(|blocks|, i requires 0 <= i < |blocks| => Lowered(blocks[i], fall));
    assert forall b :: b in moved <==> Lowered(b, -fall) in blocks by {
      forall b
        ensures b in moved <==> Lowered(b, -fall) in blocks
      {
        if b in moved {
          var i :| 0 <= i < |moved| && moved[i] == b;
          assert blocks[i] == Lowered(b, -fall);
        }
        if Lowered(b, -fall) in blocks {
          var i :| 0 <= i < |blocks| && blocks[i] == Lowered(b, -fall);
          assert moved[i] == b;
        }
      }
    }
    Filter(moved, (b: Block) => b.y < GameHeight)
  }

  /** One timer tick: blocks fall at the pace of the score before the tick,
      a block appears at the top of column `RandomColumn(u)` when the spawn
      roll fired, and the score rises by one. A finished game does not tick. */
  function ProtoTick(p: Proto, spawns: bool, u: real): (p': Proto)
    requires 0.0 <= u < 1.0
    ensures p.gameOver ==> p' == p
    ensures !p.gameOver ==> p'.score == p.score + 1 && p'.carX == p.carX && !p'.gameOver
    ensures !p.gameOver ==> forall b :: b in p'.blocks <==>
      (b.y < GameHeight && Lowered(b, -ProtoFall(p.score)) in p.blocks) || (spawns && b == Block(RandomColumn(u), -BlockHeight))
    ensures !p.gameOver && spawns ==> |p'.blocks| >= 1 && p'.blocks[|p'.blocks| - 1] == Block(RandomColumn(u), -BlockHeight)
  {
    if p.gameOver then p
    else
      var kept := Drop(p.blocks, ProtoFall(p.score));
      var blocks := if spawns then kept + [Block(RandomColumn(u), -BlockHeight)] else kept;
      p.(blocks := blocks, score := p.score + 1)
  }

  function BlockBox(b: Block): Box
  {
    Box(b.x as real, b.y as real, BlockWidth as real, BlockHeight as real)
  }

  function ProtoCarBox(carX: int): Box
  {
    Box(carX as real, CarTop as real, CarWidth as real, CarHeight as real)
  }

  /** The block overlaps the car. */
  predicate Crashes(carX: int, b: Block)
  {
    Overlaps(BlockBox(b), ProtoCarBox(carX))
  }

  /** The collision check: the game ends as soon as some block overlaps the
      car; otherwise nothing changes. */
  function Collide(p: Proto): (p': Proto)
    ensures p'.gameOver <==> p.gameOver || exists b :: b in p.blocks && Crashes(p.carX, b)
    ensures p' == p.(gameOver := p'.gameOver)
  {
    if exists b :: b in p.blocks && Crashes(p.carX, b) then p.(gameOver := true) else p
  }

  /** The same check written the way the source spells it out, edge by edge
      in integer pixels. */
  predicate CrashesByEdges(carX: int, b: Block)
  {
    && b.y + BlockHeight > GameHeight - CarHeight - 10
    && b.y < GameHeight - 10
    && b.x < carX + CarWidth
    && b.x + BlockWidth > carX
  }

  lemma CrashesMatchesEdges(carX: int, b: Block)
    ensures Crashes(carX, b) <==> CrashesByEdges(carX, b)
  {
  }

  /** An arrow key: 20 px left or right, stopping at the edges of the board;
      ignored once the game is over, as are all other keys. */
  function ProtoPress(p: Proto, left: bool, right: bool): (p': Proto)
    requires !(left && right)
    ensures p.gameOver || (!left && !right) ==> p' == p
    ensures OnBoard(p) ==> OnBoard(p')
    ensures !p.gameOver && left ==> p'.carX == if p.carX - CarStep < 0 then 0 else p.carX - CarStep
    ensures !p.gameOver && right ==> p'.carX == if p.carX + CarStep > CarMax then CarMax else p.carX + CarStep
    ensures p' == p.(carX := p'.carX)
  {
    if p.gameOver then p
    else if left then p.(carX := if 0 > p.carX - CarStep then 0 else p.carX - CarStep)
    else if right then p.(carX := if CarMax < p.carX + CarStep then CarMax else p.carX + CarStep)
    else p
  }

  datatype ProtoEvent =
    | ProtoTickAt(spawns: bool, u: real)
    | ArrowKey(left: bool)
    | ProtoRestart

  predicate ProtoFeasible(e: ProtoEvent)
  {
    e.ProtoTickAt? ==> 0.0 <= e.u < 1.0
  }

  /** A tick is followed by the collision check it triggers; so is a move.
      The restart button exists only on the game-over panel, so a restart of
      a running game changes nothing. */
  function ProtoApply(p: Proto, e: ProtoEvent): Proto
    requires ProtoFeasible(e)
  {
    match e
    case ProtoTickAt(spawns, u) => Collide(ProtoTick(p, spawns, u))
    case ArrowKey(left) => Collide(ProtoPress(p, left, !left))
    case ProtoRestart => if p.gameOver then NewProto() else p
  }

  function ProtoRun(p: Proto, events: seq<ProtoEvent>): Proto
    requires forall i :: 0 <= i < |events| ==> ProtoFeasible(events[i])
    decreases |events|
  {
    if |events| == 0 then p else ProtoRun(ProtoApply(p, events[0]), events[1..])
  }

  /** Whatever happens, the car stays on the board. */
  lemma {:induction false} ProtoStaysOnBoard(p: Proto, events: seq<ProtoEvent>)
    requires OnBoard(p)
    requires forall i :: 0 <= i < |events| ==> ProtoFeasible(events[i])
    ensures OnBoard(ProtoRun(p, events))
    decreases |events|
  {
    if |events| > 0 {
      ProtoStaysOnBoard(ProtoApply(p, events[0]), events[1..]);
    }
  }

  /** Once the game is over only a restart changes anything: the car, the
      blocks and the score are frozen. */
  lemma {:induction false} ProtoGameOverIsFinal(p: Proto, events: seq<ProtoEvent>)
    requires p.gameOver
    requires forall i :: 0 <= i < |events| ==> ProtoFeasible(events[i]) && !events[i].ProtoRestart?
    ensures ProtoRun(p, events) == p
    decreases |events|
  {
    if |events| > 0 {
      assert ProtoApply(p, events[0]) == p;
      ProtoGameOverIsFinal(p, events[1..]);
    }
  }

  /** Without a restart the score never falls and gains at most one point
      per event: only ticks score, one point each. */
  lemma {:induction false} ProtoScoreCountsTicks(p: Proto, events: seq<ProtoEvent>)
    requires forall i :: 0 <= i < |events| ==> ProtoFeasible(events[i]) && !events[i].ProtoRestart?
    ensures ProtoRun(p, events).score <= p.score + |events|
    ensures ProtoRun(p, events).score >= p.score
    decreases |events|
  {
    if |events| > 0 {
      var q := ProtoApply(p, events[0]);
      assert q.score <= p.score + 1;
      if q.gameOver {
        ProtoGameOverIsFinal(q, events[1..]);
      } else {
        ProtoScoreCountsTicks(q, events[1..]);
      }
    }
  }
}

=== FILE: ranking.dfy ===
/** The pure part of the score server's `submit_score` (server.py): fill in
    the defaults of a submission, append it to the stored list, sort stably
    by score from high to low, keep the first ten. Reading and writing the
    score file and the HTTP layer are not modelled. */
module Ranking {
  import opened Seqs

  datatype Entry = Entry(name: string, score: int)

  /** A posted JSON body: either field may be missing. */
  datatype Submission = Submission(name: Option<string>, score: Option<int>)

  const Anonymous: string := "anonymous"
  const RankingSize: nat := 10

  /** The entry a submission is stored as. */
  function EntryOf(s: Submission): (e: Entry)
    ensures s.name.None? ==> e.name == Anonymous
    ensures s.name.Some? ==> e.name == s.name.value
    ensures s.score.None? ==> e.score == 0
    ensures s.score.Some? ==> e.score == s.score.value
  {
    Entry(match s.name case Some(n) => n case None => Anonymous,
          match s.score case Some(k) => k case None => 0)
  }

  /** Scores never increase along the list. */
  predicate Descending(s: seq<Entry>)
  {
    forall i, j :: 0 <= i < j < |s| ==> s[i].score >= s[j].score
  }

  function HasScore(k: int): Entry -> bool
  {
    (e: Entry) => e.score == k
  }

  /** The entries scoring exactly `k`, in list order. A stable sort keeps
      each of these sequences as it was. */
  function WithScore(s: seq<Entry>, k: int): (r: seq<Entry>)
    ensures forall e :: e in r <==> e in s && e.score == k
  {
    Filter(s, HasScore(k))
  }

  /** `e` placed after every entry scoring at least as much and before the
      first one scoring less. */
  function Insert(r: seq<Entry>, e: Entry): (q: seq<Entry>)
    ensures |q| == |r| + 1
    ensures multiset(q) == multiset(r) + multiset{e}
    decreases |r|
  {
    if |r| == 0 then [e]
    else if r[0].score >= e.score then
      assert r == [r[0]] + r[1..];
      [r[0]] + Insert(r[1..], e)
    else
      [e] + r
  }

  /** Inserting into a sorted list keeps it sorted. */
  lemma {:induction false} InsertSorted(r: seq<Entry>, e: Entry)
    requires Descending(r)
    ensures Descending(Insert(r, e))
    decreases |r|
  {
    if |r| > 0 && r[0].score >= e.score {
      DescendingTail(r);
      InsertSorted(r[1..], e);
      InsertBounded(r[1..], e, r[0].score);
      ConsDescending(r[0], Insert(r[1..], e));
    }
  }

  /** Inserting an entry that scores no more than `m` into a list that
      scores no more than `m` gives such a list. */
  lemma {:induction false} InsertBounded(r: seq<Entry>, e: Entry, m: int)
    requires e.score <= m && forall i :: 0 <= i < |r| ==> r[i].score <= m
    ensures forall i :: 0 <= i < |Insert(r, e)| ==> Insert(r, e)[i].score <= m
    decreases |r|
  {
    if |r| > 0 && r[0].score >= e.score {
      InsertBounded(r[1..], e, m);
    }
  }

  lemma ConsDescending(x: Entry, s: seq<Entry>)
    requires Descending(s) && forall i :: 0 <= i < |s| ==> s[i].score <= x.score
    ensures Descending([x] + s)
  {
  }

  lemma DescendingTail(r: seq<Entry>)
    requires |r| > 0 && Descending(r)
    ensures Descending(r[1..])
  {
    forall i, j | 0 <= i < j < |r[1..]|
      ensures r[1..][i].score >= r[1..][j].score
    {
      assert r[1..][i] == r[i + 1] && r[1..][j] == r[j + 1];
    }
  }

  /** Inserting into a sorted list keeps every score class in order and
      puts `e` last in its own. */
  lemma {:induction false} InsertStable(r: seq<Entry>, e: Entry, k: int)
    requires Descending(r)
    ensures WithScore(Insert(r, e), k) == WithScore(r, k) + WithScore([e], k)
    decreases |r|
  {
    if |r| == 0 {
      assert Insert(r, e) == [e];
      assert WithScore(r, k) == [];
    } else if r[0].score >= e.score {
      DescendingTail(r);
      InsertStable(r[1..], e, k);
      InsertBehind(r, e, k, WithScore([e], k));
    } else {
      InsertInFront(r, e, k);
    }
  }

  /** When the head of the list stays in front of `e`, a score class of
      the result is the one of inserting into the tail, with the head put back. */
  lemma InsertBehind(r: seq<Entry>, e: Entry, k: int, after: seq<Entry>)
    requires |r| > 0 && r[0].score >= e.score
    requires WithScore(Insert(r[1..], e), k) == WithScore(r[1..], k) + after
    ensures WithScore(Insert(r, e), k) == WithScore(r, k) + after
  {
    assert Insert(r, e) == [r[0]] + Insert(r[1..], e);
    assert r == [r[0]] + r[1..];
    FilterConsBoth(r[0], Insert(r[1..], e), r[1..], HasScore(k), after);
  }

  /** When `e` outscores the whole sorted list it goes first, and no entry
      of the list shares its score. */
  lemma InsertInFront(r: seq<Entry>, e: Entry, k: int)
    requires Descending(r) && |r| > 0 && r[0].score < e.score
    ensures WithScore(Insert(r, e), k) == WithScore(r, k) + WithScore([e], k)
  {
    assert Insert(r, e) == [e] + r;
    FilterAppend([e], r, HasScore(k));
    if e.score == k {
      NoneScoring(r, k);
      assert Filter([e], HasScore(k)) == [e];
    } else {
      assert Filter([e], HasScore(k)) == [];
    }
  }

  lemma NoneScoring(r: seq<Entry>, k: int)
    requires Descending(r) && |r| > 0 && r[0].score < k
    ensures WithScore(r, k) == []
  {
    forall x | x in r
      ensures x.score != k
    {
      var i :| 0 <= i < |r| && r[i] == x;
      assert r[0].score >= r[i].score;
    }
    var w := Filter(r, HasScore(k));
    if |w| > 0 {
      assert w[0] in w;
    }
  }

  /** Python's `sorted(..., key=score, reverse=True)`: stable, high scores first. */
  function SortDesc(s: seq<Entry>): (r: seq<Entry>)
    ensures |r| == |s|
    ensures multiset(r) == multiset(s)
    ensures Descending(r)
    decreases |s|
  {
    if |s| == 0 then []
    else
      assert s == s[..|s| - 1] + [s[|s| - 1]];
      InsertSorted(SortDesc(s[..|s| - 1]), s[|s| - 1]);
      Insert(SortDesc(s[..|s| - 1]), s[|s| - 1])
  }

  /** The sort is stable: entries with equal scores keep their relative order. */
  lemma {:induction false} SortStable(s: seq<Entry>, k: int)
    ensures WithScore(SortDesc(s), k) == WithScore(s, k)
    decreases |s|
  {
    if |s| > 0 {
      var init, last := s[..|s| - 1], s[|s| - 1];
      SortStable(init, k);
      InsertStable(SortDesc(init), last, k);
      SortDescLast(s);
      WithScoreLast(s, k);
    }
  }

  /** The sort places the last entry into the sorted rest. */
  lemma SortDescLast(s: seq<Entry>)
    requires |s| > 0
    ensures SortDesc(s) == Insert(SortDesc(s[..|s| - 1]), s[|s| - 1])
  {
  }

  lemma WithScoreLast(s: seq<Entry>, k: int)
    requires |s| > 0
    ensures WithScore(s, k) == WithScore(s[..|s| - 1], k) + WithScore([s[|s| - 1]], k)
  {
    assert s == s[..|s| - 1] + [s[|s| - 1]];
    FilterAppend(s[..|s| - 1], [s[|s| - 1]], HasScore(k));
  }

  /** A list already in order is left as it is. */
  lemma {:induction false} SortKeepsSorted(s: seq<Entry>)
    requires Descending(s)
    ensures SortDesc(s) == s
    decreases |s|
  {
    if |s| > 0 {
      var init, last := s[..|s| - 1], s[|s| - 1];
      SplitLast(s);
      DescendingInit(init, last);
      SortKeepsSorted(init);
      InsertAtEnd(init, last);
      SortDescLast(s);
    }
  }

  lemma DescendingInit(init: seq<Entry>, last: Entry)
    requires Descending(init + [last])
    ensures Descending(init)
    ensures forall i :: 0 <= i < |init| ==> init[i].score >= last.score
  {
    forall i | 0 <= i < |init|
      ensures init[i].score >= last.score
    {
      assert (init + [last])[i] == init[i] && (init + [last])[|init|] == last;
    }
    forall i, j | 0 <= i < j < |init|
      ensures init[i].score >= init[j].score
    {
      assert (init + [last])[i] == init[i] && (init + [last])[j] == init[j];
    }
  }

  /** An entry scoring no more than anything in a sorted list goes at its end. */
  lemma {:induction false} InsertAtEnd(r: seq<Entry>, e: Entry)
    requires forall i :: 0 <= i < |r| ==> r[i].score >= e.score
    ensures Insert(r, e) == r + [e]
    decreases |r|
  {
    if |r| > 0 {
      InsertAtEnd(r[1..], e);
      assert r == [r[0]] + r[1..];
    }
  }

  function Min(a: nat, b: nat): nat
  {
    if a <= b then a else b
  }

  /** The stored ranking after a submission. */
  function Submit(stored: seq<Entry>, sub: Submission): (r: seq<Entry>)
    ensures |r| == Min(|stored| + 1, RankingSize)
    ensures Descending(r)
    ensures multiset(r) <= multiset(stored + [EntryOf(sub)])
  {
    var all := stored + [EntryOf(sub)];
    var sorted := SortDesc(all);
    var n := Min(|all|, RankingSize);
    assert sorted == sorted[..n] + sorted[n..];
    sorted[..n]
  }

  /** Cutting a sorted list: nothing after the cut outscores anything before it. */
  lemma CutKeepsBest(sorted: seq<Entry>, n: nat)
    requires Descending(sorted) && n <= |sorted|
    ensures forall x, y :: x in sorted[n..] && y in sorted[..n] ==> x.score <= y.score
  {
    forall x, y | x in sorted[n..] && y in sorted[..n]
      ensures x.score <= y.score
    {
      var i :| 0 <= i < |sorted[n..]| && sorted[n..][i] == x;
      var j :| 0 <= j < n && sorted[..n][j] == y;
      assert sorted[j] == y && sorted[n + i] == x;
    }
  }

  lemma CutMultiset<T>(s: seq<T>, n: nat)
    requires n <= |s|
    ensures multiset(s) - multiset(s[..n]) == multiset(s[n..])
  {
    assert s == s[..n] + s[n..];
  }

  /** Nothing dropped outscores anything kept. */
  lemma SubmitKeepsBest(stored: seq<Entry>, sub: Submission)
    ensures var all := stored + [EntryOf(sub)];
      var r := Submit(stored, sub);
      forall x: Entry, y: Entry :: x in multiset(all) - multiset(r) && y in r ==> x.score <= y.score
  {
    var all := stored + [EntryOf(sub)];
    var sorted := SortDesc(all);
    var n := Min(|all|, RankingSize);
    assert Submit(stored, sub) == sorted[..n];
    CutKeepsBest(sorted, n);
    CutMultiset(sorted, n);
  }

  /** Ties keep their submission order: for every score, the kept entries
      with that score are the first ones of that score in the stored list
      followed by the new entry. */
  lemma SubmitStable(stored: seq<Entry>, sub: Submission, k: int)
    ensures WithScore(Submit(stored, sub), k) <= WithScore(stored + [EntryOf(sub)], k)
  {
    var all := stored + [EntryOf(sub)];
    var sorted := SortDesc(all);
    var n := Min(|all|, RankingSize);
    var r := Submit(stored, sub);
    assert sorted == r + sorted[n..];
    FilterAppend(r, sorted[n..], HasScore(k));
    SortStable(all, k);
  }

  /** While the ranking is not full the new entry always gets in, behind
      every stored entry with the same score. */
  lemma SubmitAdmits(stored: seq<Entry>, sub: Submission)
    requires |stored| < RankingSize
    ensures EntryOf(sub) in Submit(stored, sub)
    ensures var e := EntryOf(sub);
      WithScore(Submit(stored, sub), e.score) == WithScore(stored, e.score) + [e]
  {
    var e := EntryOf(sub);
    var all := stored + [e];
    SubmitUncut(stored, sub);
    assert e in multiset(SortDesc(all)) by {
      assert all[|stored|] == e;
    }
    SortStable(all, e.score);
    FilterAppend(stored, [e], HasScore(e.score));
    FilterCons(e, [], HasScore(e.score));
    assert [e] + [] == [e];
  }

  /** Below ten entries nothing is cut. */
  lemma SubmitUncut(stored: seq<Entry>, sub: Submission)
    requires |stored| < RankingSize
    ensures Submit(stored, sub) == SortDesc(stored + [EntryOf(sub)])
  {
    WholePrefix(SortDesc(stored + [EntryOf(sub)]));
  }

  lemma WholePrefix<T>(s: seq<T>)
    ensures s[..|s|] == s
  {
  }

  /** On a list kept by earlier submissions the update is a plain insertion
      followed by the cut to ten. */
  lemma SubmitIsInsertion(stored: seq<Entry>, sub: Submission)
    requires Descending(stored)
    ensures Submit(stored, sub) == Insert(stored, EntryOf(sub))[..Min(|stored| + 1, RankingSize)]
  {
    var e := EntryOf(sub);
    var all := stored + [e];
    assert all[..|all| - 1] == stored;
    SortKeepsSorted(stored);
  }
}

=== FILE: seqs.dfy ===
/** Sequence helpers shared by every part of the game model: an optional
    value, the order-preserving filter that JavaScript's `Array.filter` and
    Python's list comprehensions perform, `Array.find`-style search, and the
    subsequence relation that states "survivors keep their relative order". */
module Seqs {

  datatype Option<+T> = None | Some(value: T)

  /** `a` is `b` with some elements dropped, the remaining ones in their
      original order. */
  predicate Subseq<T(==)>(a: seq<T>, b: seq<T>)
    decreases |b|
  {
    if |a| == 0 then true
    else if |b| == 0 then false
    else (a[0] == b[0] && Subseq(a[1..], b[1..])) || Subseq(a, b[1..])
  }

  /** The elements of `s` that satisfy `p`, in their original order. */
  function Filter<T(==,!new)>(s: seq<T>, p: T -> bool): (r: seq<T>)
    ensures |r| <= |s|
    ensures forall x :: x in r <==> x in s && p(x)
    ensures Subseq(r, s)
    decreases |s|
  {
    if |s| == 0 then []
    else
      var rest := Filter(s[1..], p);
      if p(s[0]) then
        assert ([s[0]] + rest)[1..] == rest;
        [s[0]] + rest
      else
        rest
  }

  /** Index of the first element satisfying `p`, searching from `from` on. */
  function FirstIndexFrom<T>(s: seq<T>, p: T -> bool, from: nat): (r: Option<nat>)
    requires from <= |s|
    ensures r.Some? ==> from <= r.value < |s| && p(s[r.value])
    ensures r.Some? ==> forall j :: from <= j < r.value ==> !p(s[j])
    ensures r.None? ==> forall j :: from <= j < |s| ==> !p(s[j])
    decreases |s| - from
  {
    if from == |s| then None
    else if p(s[from]) then Some(from)
    else FirstIndexFrom(s, p, from + 1)
  }

  /** `Array.prototype.findIndex`: the first position whose element satisfies `p`. */
  function FirstIndex<T>(s: seq<T>, p: T -> bool): (r: Option<nat>)
    ensures r.Some? ==> r.value < |s| && p(s[r.value])
    ensures r.Some? ==> forall j :: 0 <= j < r.value ==> !p(s[j])
    ensures r.None? ==> forall j :: 0 <= j < |s| ==> !p(s[j])
  {
    FirstIndexFrom(s, p, 0)
  }

  /** `s` with the element at position `k` taken out. */
  function RemoveAt<T>(s: seq<T>, k: nat): (r: seq<T>)
    requires k < |s|
    ensures |r| == |s| - 1
    ensures forall i :: 0 <= i < k ==> r[i] == s[i]
    ensures forall i :: k <= i < |r| ==> r[i] == s[i + 1]
  {
    s[..k] + s[k + 1..]
  }

  lemma {:induction false} SubseqRefl<T>(s: seq<T>)
    ensures Subseq(s, s)
    decreases |s|
  {
    if |s| > 0 {
      SubseqRefl(s[1..]);
    }
  }

  lemma {:induction false} SubseqMembers<T>(a: seq<T>, b: seq<T>)
    requires Subseq(a, b)
    ensures forall x :: x in a ==> x in b
    ensures |a| <= |b|
    decreases |b|
  {
    if |a| > 0 {
      if a[0] == b[0] && Subseq(a[1..], b[1..]) {
        SubseqMembers(a[1..], b[1..]);
        assert a == [a[0]] + a[1..];
        assert b == [b[0]] + b[1..];
      } else {
        SubseqMembers(a, b[1..]);
        assert b == [b[0]] + b[1..];
      }
    }
  }

  lemma {:induction false} SubseqTrans<T>(a: seq<T>, b: seq<T>, c: seq<T>)
    requires Subseq(a, b) && Subseq(b, c)
    ensures Subseq(a, c)
    decreases |c|
  {
    if |a| > 0 {
      SubseqMembers(a, b);
      SubseqMembers(b, c);
      if Subseq(b, c[1..]) {
        SubseqTrans(a, b, c[1..]);
      } else if a[0] == b[0] && Subseq(a[1..], b[1..]) {
        SubseqTrans(a[1..], b[1..], c[1..]);
      } else {
        SubseqTrans(a, b[1..], c[1..]);
      }
    }
  }

  /** Dropping one element keeps the others in order. */
  lemma {:induction false} RemoveAtSubseq<T>(s: seq<T>, k: nat)
    requires k < |s|
    ensures Subseq(RemoveAt(s, k), s)
    decreases k
  {
    if k == 0 {
      assert RemoveAt(s, 0) == s[1..];
      SubseqRefl(s[1..]);
      if |s[1..]| > 0 {
        assert Subseq(s[1..], s[1..]);
      }
    } else {
      RemoveAtSubseq(s[1..], k - 1);
      assert RemoveAt(s, k)[1..] == RemoveAt(s[1..], k - 1);
    }
  }

  /** A non-empty sequence is its front followed by its last element. */
  lemma SplitLast<T>(s: seq<T>)
    requires |s| > 0
    ensures s[..|s| - 1] + [s[|s| - 1]] == s
  {
  }

  /** Dropping one element takes exactly that element out of the multiset. */
  lemma RemoveAtMultiset<T>(s: seq<T>, k: nat)
    requires k < |s|
    ensures multiset(RemoveAt(s, k)) + multiset{s[k]} == multiset(s)
  {
    assert s == s[..k] + [s[k]] + s[k + 1..];
  }

  /** Filtering distributes over concatenation: order is preserved block by block. */
  lemma {:induction false} FilterAppend<T(!new)>(a: seq<T>, b: seq<T>, p: T -> bool)
    ensures Filter(a + b, p) == Filter(a, p) + Filter(b, p)
    decreases |a|
  {
    if |a| == 0 {
      assert a + b == b;
    } else {
      assert (a + b)[0] == a[0];
      assert (a + b)[1..] == a[1..] + b;
      FilterAppend(a[1..], b, p);
    }
  }

  /** A filter that rejects nothing is the identity. */
  lemma {:induction false} FilterKeepsAll<T(!new)>(s: seq<T>, p: T -> bool)
    requires forall x :: x in s ==> p(x)
    ensures Filter(s, p) == s
    decreases |s|
  {
    if |s| > 0 {
      FilterKeepsAll(s[1..], p);
    }
  }

  /** A filter that rejects exactly the element at position `k` removes just that one. */
  lemma {:induction false} FilterDropsOne<T(!new)>(s: seq<T>, p: T -> bool, k: nat)
    requires k < |s| && !p(s[k])
    requires forall i :: 0 <= i < |s| && i != k ==> p(s[i])
    ensures Filter(s, p) == RemoveAt(s, k)
    decreases k
  {
    if k == 0 {
      forall x | x in s[1..]
        ensures p(x)
      {
        var i :| 0 <= i < |s[1..]| && s[1..][i] == x;
        assert x == s[i + 1];
      }
      FilterKeepsAll(s[1..], p);
    } else {
      FilterDropsOne(s[1..], p, k - 1);
      assert RemoveAt(s, k) == [s[0]] + RemoveAt(s[1..], k - 1);
    }
  }

  /** Filtering a sequence with a known first element. */
  lemma FilterCons<T(!new)>(x: T, s: seq<T>, p: T -> bool)
    ensures p(x) ==> Filter([x] + s, p) == [x] + Filter(s, p)
    ensures !p(x) ==> Filter([x] + s, p) == Filter(s, p)
  {
    assert ([x] + s)[0] == x;
    assert ([x] + s)[1..] == s;
  }

  /** Putting the same element in front of two sequences keeps a relation
      between their filtered forms. */
  lemma FilterConsBoth<T(!new)>(x: T, a: seq<T>, b: seq<T>, p: T -> bool, after: seq<T>)
    requires Filter(a, p) == Filter(b, p) + after
    ensures Filter([x] + a, p) == Filter([x] + b, p) + after
  {
    FilterCons(x, a, p);
    FilterCons(x, b, p);
  }

  /** The members of a non-empty sequence: its head and the members of its tail. */
  lemma ConsMembers<T>(s: seq<T>)
    requires |s| > 0
    ensures forall x :: x in s <==> x == s[0] || x in s[1..]
  {
    assert s == [s[0]] + s[1..];
  }
}

=== FILE: world.dfy ===
/** The part of a timer tick that both snapshots of the four-lane game share:
    obstacles and stars fall by the descent speed of a "pace" score, those
    that reached the bottom are dropped, a row of obstacles and possibly a star
    appear at the top. The snapshots differ in which score sets the pace (the
    one before or after the tick's increment) and in the obstacle size. */
module World {
  import opened Seqs
  import opened Geometry
  import opened Entities
  import opened Lanes
  import opened Player

  const TickScore: nat := 3
  const StarBonus: nat := 20
  /** Stars only appear once the pace score is above this. */
  const StarScoreGate: nat := 100

  /** The outcomes of one tick's calls to `Math.random()`: whether the
      obstacle roll and the star roll fired, and the draws that pick the empty
      lane and the star's lane. */
  datatype Draws = Draws(obstaclesFire: bool, emptyLaneDraw: real, starFires: bool, starLaneDraw: real)

  predicate InRange(r: Draws)
  {
    0.0 <= r.emptyLaneDraw < 1.0 && 0.0 <= r.starLaneDraw < 1.0
  }

  /** The obstacles spawned this tick, if the roll fired. */
  function NewObstacles(d: Dims, r: Draws, firstId: nat): (s: seq<Entity>)
    requires InRange(r)
    ensures r.obstaclesFire ==> |s| == LaneCount - 1
    ensures !r.obstaclesFire ==> s == []
    ensures UniqueIds(s) && IdsBelow(s, firstId + |s|)
    ensures forall e :: e in s ==> e.id >= firstId && e.y == -d.obstacleHeight
  {
    if r.obstaclesFire then
      SpawnedFresh(d, RandomIndex(r.emptyLaneDraw, LaneCount), firstId);
      SpawnObstacles(d, RandomIndex(r.emptyLaneDraw, LaneCount), firstId)
    else []
  }

  /** The star spawned this tick: only above the score gate, only if the roll
      fired, and only if some lane is free of obstacles near the top. */
  function NewStars(d: Dims, r: Draws, pace: nat, obstacles: seq<Entity>, id: nat): (s: seq<Entity>)
    requires InRange(r)
    ensures |s| <= 1
    ensures |s| == 1 <==> pace > StarScoreGate && r.starFires && exists l :: 0 <= l < LaneCount && !Occupied(d, obstacles, l)
    ensures forall e :: e in s ==> e.id == id && e.y == -StarSize
    ensures forall e :: e in s ==> exists l :: 0 <= l < LaneCount && !Occupied(d, obstacles, l) && e.x == LaneX(d, l)
  {
    if pace > StarScoreGate && r.starFires then
      match SpawnStar(d, obstacles, r.starLaneDraw, id)
      case Some(star) => [star]
      case None => []
    else []
  }

  /** The star, if any, that the tick of `g` spawns: its lane is chosen
      against the obstacles as they are after this tick's motion and spawn. */
  function ArrivingStars(d: Dims, t: Tier, pace: nat, g: Game, r: Draws): seq<Entity>
    requires InRange(r)
  {
    var spawned := NewObstacles(d, r, g.nextId);
    NewStars(d, r, pace, Descend(g.obstacles, Fall(t, pace)) + spawned, g.nextId + |spawned|)
  }

  /** The obstacles after a tick: every obstacle moved down by the fall of
      the pace score, those that reached the bottom dropped, then the new row.
      Anything that was not there before is fresh and at the top. */
  function TickObstacles(d: Dims, t: Tier, pace: nat, g: Game, r: Draws): (s: seq<Entity>)
    requires InRange(r)
    ensures var fall := Fall(t, pace);
      && (forall o: Entity :: o.y < GameHeight && Moved(o, -fall) in g.obstacles ==> o in s)
      && (forall o :: o in s ==>
            (o.y < GameHeight && Moved(o, -fall) in g.obstacles) || (o.y == -d.obstacleHeight && o.id >= g.nextId))
    ensures UniqueIds(g.obstacles) && IdsBelow(g.obstacles, g.nextId) ==>
      UniqueIds(s) && IdsBelow(s, g.nextId + |NewObstacles(d, r, g.nextId)|)
    ensures var spawned := NewObstacles(d, r, g.nextId);
      && |spawned| <= |s| && s[|s| - |spawned|..] == spawned
      && Subseq(s[..|s| - |spawned|], Shift(g.obstacles, Fall(t, pace)))
  {
    var spawned := NewObstacles(d, r, g.nextId);
    DescendWith(g.obstacles, Fall(t, pace), spawned, g.nextId, g.nextId + |spawned|)
  }

  /** The stars after a tick: every star moved down by the same fall, those
      that reached the bottom dropped, then the new star if one arrived. */
  function TickStars(d: Dims, t: Tier, pace: nat, g: Game, r: Draws): (s: seq<Entity>)
    requires InRange(r)
    ensures var fall := Fall(t, pace);
      && (forall e: Entity :: e.y < GameHeight && Moved(e, -fall) in g.stars ==> e in s)
      && (forall e :: e in s ==>
            (e.y < GameHeight && Moved(e, -fall) in g.stars) || (e.y == -StarSize && e.id >= g.nextId))
    ensures UniqueIds(g.stars) && IdsBelow(g.stars, g.nextId) ==>
      UniqueIds(s) && IdsBelow(s, g.nextId + |NewObstacles(d, r, g.nextId)| + |ArrivingStars(d, t, pace, g, r)|)
    ensures var star := ArrivingStars(d, t, pace, g, r);
      && |star| <= |s| && s[|s| - |star|..] == star
      && Subseq(s[..|s| - |star|], Shift(g.stars, Fall(t, pace)))
  {
    var star := ArrivingStars(d, t, pace, g, r);
    DescendWith(g.stars, Fall(t, pace), star, g.nextId, g.nextId + |NewObstacles(d, r, g.nextId)| + |star|)
  }

  /** Everything a tick moves, with the pace score `pace`: bullets up,
      obstacles and stars down, new arrivals appended, identities handed out.
      The score and the player's flags are left to the caller. */
  function Move(d: Dims, t: Tier, pace: nat, g: Game, r: Draws): (g': Game)
    requires InRange(r)
    ensures g'.obstacles == TickObstacles(d, t, pace, g, r) && g'.stars == TickStars(d, t, pace, g, r)
    ensures forall b :: b in g'.bullets <==> b.y > -BulletHeight && Moved(b, BulletSpeed) in g.bullets
    ensures g'.lane == g.lane && g'.lives == g.lives && g'.canAttack == g.canAttack && g'.score == g.score
    ensures g'.invulnerable == g.invulnerable && g'.gameOver == g.gameOver
    ensures g'.lastMove == g.lastMove && g'.lastFire == g.lastFire && g'.nextId >= g.nextId
    ensures g'.paceScore == g.paceScore
    ensures Valid(g) ==> Valid(g')
  {
    RiseUnique(g.bullets, g.nextId);
    g.(bullets := Rise(g.bullets),
       obstacles := TickObstacles(d, t, pace, g, r),
       stars := TickStars(d, t, pace, g, r),
       nextId := g.nextId + |NewObstacles(d, r, g.nextId)| + |ArrivingStars(d, t, pace, g, r)|)
  }

  /** Everything that can happen to a running game. */
  datatype Event =
    | Tick(draws: Draws)
    | KeyDown(key: Key, now: int)
    | BoardClick(x: real)
    | InvulnerabilityEnds
    | Restart

  predicate Feasible(e: Event)
  {
    e.Tick? ==> InRange(e.draws)
  }

  /** A run of events within one round: no restart among them. */
  predicate Uninterrupted(events: seq<Event>)
  {
    forall i :: 0 <= i < |events| ==> !events[i].Restart?
  }
}
